=== FILE: README.md ===
# Keyword redaction extension — a Dafny model

The extension hides page content that mentions user-chosen keywords.

- **Content script** (`content.js`). It walks every text node of the page. A text node that contains a keyword marks its parent element, provided the parent passes a size gate: its area is below half the viewport's (`content.js:46`). It then looks for the nearest ancestor that repeats, and marks it too if that ancestor also passes the gate (`content.js:49-55`). An ancestor repeats when its own parent has another child with the same tag name and the identical class string, as feed cards do. Every marked element gets the class `redaction-filter`. Its inline `display` becomes `none` while filtering is on for the site, or is reset while it is off. The scan runs once at start-up, again whenever nodes are added or removed anywhere below the body (the observer watches `childList` and `subtree` only, `content.js:74`, so attribute and text edits do not trigger it), and again on every change to the synced settings.
- **Popup** (`popup.js`). It edits the keyword list and flips the per-site switch. Both are kept in `chrome.storage.sync` under `keywords` and `siteFilters`.

The model is pure Dafny: immutable datatypes and functions, with lemmas relating them.

| module | file | what it holds |
|---|---|---|
| `Wrappers` | `wrappers.dfy` | `Option`, with `GetOr` for the `= []` / `= {}` destructuring defaults (the `?? true` default is `Settings.EnabledFor`) |
| `Seqs` | `seqs.dfy` | `Filter` (`Array.prototype.filter`); `Dedup` (`[...new Set(s)]`) and its reference definition `FirstOccurrences`; subsequences; `UnionOver` |
| `Strings` | `strings.dfy` | `toLowerCase` (ASCII), `trim` (the ECMAScript white-space set), `includes`, `split`/`join` on one character |
| `ClassList` | `class_list.dfy` | the class attribute as a token list; `AddMarker` is `classList.add("redaction-filter")` |
| `Keywords` | `keywords.dfy` | `hasKeyword`, `containsKeywords` |
| `Settings` | `settings.dfy` | `siteFilters[host] ?? true` |
| `Dom` | `dom.dfy` | the page below `document.body` as a tree; elements are named by their path of child indices; the tree walker's text nodes in document order; the size gate; the page as seen after marker classes were added |
| `Resolver` | `resolver.dfy` | `getRepeatingAncestor` as a climb over path prefixes, both corrected and as written |
| `Engine` | `engine.dfy` | `checkContent` and the state it keeps (keywords, switch, marked elements, inline displays); start-up; the storage-change handler |
| `EngineAsWritten` | `engine_as_written.dfy` | `checkContent` as written, with the two behaviours the corrected scan drops: it runs on the live page, and a throw abandons the scan (class comparison on SVG elements is not modelled; see "## Left out") |
| `RescanExample` | `rescan_example.dfy` | a concrete page on which a second as-written scan hides more than the first |
| `Popup` | `popup.dfy` | the view model, `init`, `addKeyword`, `removeKeyword`, `toggleFilter` |
| `Extension` | `extension.dfy` | popup writes reaching the content script through storage |

Modelling choices:

- **Elements are paths.** A path is a sequence of child indices from the body. The body itself is the empty path. Its tag is `BODY`, and it has no parent inside the tree.
- **Marking is a set of paths.** `Dom.ApplyMarkers(d, marked)` is the live page that later scans read. It is the original page with `redaction-filter` added to the class attribute of every marked element.
- **Sizes are fixed.** An element's rendered width and height are reals fixed in the tree, and the viewport is a pair of integers. Hiding an element does not re-lay the page out.
- **External values are parameters.** The host name, the storage values and the viewport are parameters.
- **Timing is a fixed order.** Asynchronous callbacks are modelled in the order in which they complete. In the storage handler (`content.js:76-99`), the keyword branch scans synchronously. The site-filter branch only re-reads storage and finishes later. `Engine.OnStorageChanged` therefore applies the keyword change first and the site-filter change second.
- **Edge cases of the matcher and the gate, as the code has them:**
  - **Empty text.** A text node with empty text matches whenever the keyword list holds the empty string, because `"".includes("")` is true (`content.js:10`; `Keywords.EmptyTextMatchesOnlyEmptyKeyword`).
  - **Size gate.** The gate tests the area only (`content.js:38`). A wide but flat element, or one with no rendered area, passes whenever its area is below half the viewport's.
- **Two versions of three behaviours.** `getRepeatingAncestor`, `checkContent` and `toggleFilter` each have an as-written member that reproduces a defect (see "## Findings") and a corrected member. The storage handlers exist in both versions too: `Engine.OnKeywordsChanged`, `Engine.OnSiteFiltersChanged` and `Engine.OnStorageChanged` use the corrected scan; the `EngineAsWritten` handlers of the same names with `AsWritten` appended use the as-written scan of the live page, and lemmas relate the two.

## Model

| member | source | states |
|---|---|---|
| `Keywords.HasKeyword` | content.js:8-11 | true exactly when some keyword, lower-cased, occurs at some position of the lower-cased text |
| `Keywords.ContainsKeywords` | content.js:13-15 | exactly the keywords that match the text, in list order and with their repetitions: membership, multiplicity and subsequence of the list |
| `Keywords.HasKeywordIffContains` | content.js:8-15 | the two matchers agree: a text has a keyword iff the list of matching keywords is non-empty |
| `Keywords.NoKeywordsNoMatch` | content.js:10 | an empty keyword list matches no text |
| `Keywords.EmptyKeywordMatchesEverything` | content.js:10 | an empty string in the list matches every text |
| `Keywords.EmptyTextMatchesOnlyEmptyKeyword` | content.js:8-11 | empty text is matched iff the list contains the empty keyword |
| `Keywords.MatchIgnoresCase` | content.js:9-10 | lower-casing the text first does not change the verdict |
| `Strings.LowerIdempotent` | content.js:9 | folding case twice is folding once |
| `Strings.TrimIsInfix` | popup.js:29 | the trimmed string is a contiguous slice of the input, and everything cut off on either side is white space |
| `Strings.TrimEmptyIff` | popup.js:29-30 | input trims to empty iff it consists of white space only (the blank-input early return) |
| `Strings.Split` | popup.js:31 | at least one piece, no piece contains the separator, and joining the pieces gives the input back |
| `Strings.SplitJoin` | popup.js:31 | splitting a join of separator-free pieces recovers the pieces |
| `Seqs.Dedup` | popup.js:33 | inserting one by one into an insertion-ordered set equals the reference de-duplication (first occurrences, in order): no duplicates, same members, a subsequence |
| `Seqs.Filter` | popup.js:43 | kept elements are exactly those passing the test, with multiplicities, in their original order |
| `Settings.EnabledForUpdate` | popup.js:57 | storing a flag for a host makes that host read it back, and every other host reads what it read before |
| `Strings.Includes` | content.js:10 | `includes` is true iff the needle occurs at some position of the text |
| `ClassList.AddMarkerTokens` | content.js:60 | after `classList.add` the tokens are the old tokens plus the marker |
| `ClassList.AddMarkerIdempotent` | content.js:60 | adding the marker twice is adding it once |
| `ClassList.AddMarkerChanges` | content.js:60 | a class string without the marker token changes when it is added |
| `Dom.TextsExact` | content.js:32-42 | the tree walker visits exactly the text nodes below the body, in document order |
| `Dom.IsSmallEnough` | content.js:36-39 | an element with zero width or height passes the gate iff the viewport has a positive area |
| `Dom.SizeGateIntegerForm` | content.js:34-39 | for whole-pixel sizes the gate is `2*w*h < innerWidth*innerHeight` |
| `Dom.TextsMarked` | content.js:60 | adding marker classes leaves the walker's text nodes unchanged |
| `Dom.MarkingKeepsShape` | content.js:59-61 | marking leaves node kinds, tags, texts, sizes and child counts unchanged |
| `Dom.MarkingSetsClass` | content.js:60 | on the live page, a marked element's class string is the marker-added one; every other class is unchanged |
| `Resolver.CountAlikeIsLength` | content.js:21-23 | the count of alike siblings is the length of the filtered `siblings` array |
| `Resolver.RepeatsIffTwin` | content.js:21-24 | an element repeats iff its parent has another element child with the same tag and the identical class string |
| `Resolver.WalkFindsNearest` | content.js:18-26 | a found ancestor repeats; no BODY lies between it and the start; no element strictly between repeats |
| `Resolver.WalkMissesOnlyNonRepeating` | content.js:19-27 | when nothing is found, no ancestor below the first BODY repeats |
| `Resolver.RepeatingAncestor` | content.js:17-28 | corrected: the nearest repeating proper ancestor below the body, which is a non-BODY element, or none when there is none; the body itself has none |
| `Resolver.WalkFindsElement` | content.js:18-24 | a found ancestor is an element other than the body |
| `Resolver.RepeatingAncestorAsWritten` | content.js:17-28 | as written: a throw happens only at the body; a returned ancestor is a non-empty proper prefix of the start, an element, and it repeats |
| `Resolver.AsWrittenThrowsOnlyOnBody` | content.js:19-21 | the code as written throws exactly when started at the body; otherwise it returns the corrected result |
| `Resolver.BodyHasNoRepeatingAncestor` | content.js:19 | the corrected search gives none for the body |
| `Engine.Contribution` | content.js:42-55 | a text node contributes something only when it is counted, and then its parent is among the contributed elements |
| `Engine.Collect` | content.js:41-56 | the elements pushed to `matched` are exactly those recorded by some counted text node |
| `Engine.RecordedIsSmallElement` | content.js:46-50 | every collected element is an element that passes the size gate |
| `Engine.RecordedContainsMatch` | content.js:41-55 | every collected element contains a text node that holds a keyword |
| `Engine.MatchedParentsAreMarked` | content.js:43-55 | a counted text node's parent is collected, and so is its repeating ancestor when small |
| `Engine.NoKeywordsCollectNothing` | content.js:43 | with no keywords nothing is collected |
| `Engine.LargeElementsUntouched` | content.js:46-50 | an element failing the gate is never collected |
| `Engine.MarkAll` | content.js:59-62 | marked elements grow by the batch; each gets the display for the switch; other displays, the keywords and the switch are unchanged |
| `Engine.MarkAllIdempotent` | content.js:59-62 | marking the same batch again changes nothing |
| `Engine.Scan` | content.js:30-64 | corrected scan: the marked set becomes the old set together with every recorded element; keywords and switch are unchanged |
| `Engine.ScanPreservesConsistent` | content.js:59-62 | after a scan, the marked elements are exactly those with an inline display, and every display matches the switch |
| `Engine.ScanIdempotent` | content.js:68-74 | corrected: re-scanning an unchanged page (as the mutation observer does) changes nothing |
| `Engine.RefreshVisibility` | content.js:84-86 | every marked element, and only those, shows the display for the new switch |
| `Engine.Load` | content.js:3-6 | corrected (no throw): start-up uses the stored keywords (default empty) and `siteFilters[host] ?? true`; the first scan marks exactly the recorded elements, consistently |
| `Engine.FreshHostIsFiltered` | content.js:5 | a host with no entry, or no stored map, starts filtered |
| `Engine.OnKeywordsChanged` | content.js:91-95 | corrected (no throw, original page): the new list (or empty when the key was removed) replaces the old; the scan adds what it records and never unmarks |
| `Engine.KeywordRemovalKeepsRedactions` | content.js:91-95 | shrinking the keyword list leaves every existing redaction and its display in place |
| `Engine.ClearedKeywordsMarkNothingNew` | content.js:93 | a removed or empty keyword list marks nothing new |
| `Engine.OnSiteFiltersChanged` | content.js:80-89 | corrected (no throw, original page): the switch becomes the re-read map's value for the host; every marked element is restyled; then the page is re-scanned. When the map is missing, the callback throws and nothing changes |
| `Engine.SwitchRestylesAllMarked` | content.js:83-86 | after a switch change, every previously marked element is hidden iff filtering is now on |
| `Engine.OnStorageChanged` | content.js:76-99 | corrected (no throw, original page): only `sync` events act; each present key is handled; the marked set never shrinks |
| `Engine.StorageEventsKeepConsistent` | content.js:76-99 | storage events keep displays consistent with the marked set and the switch |
| `EngineAsWritten.StepAsWrittenThrowsOnBody` | content.js:42-55 | one text node throws iff it holds a keyword, sits directly in the body, and the body passes the gate; otherwise it contributes as in the corrected scan |
| `EngineAsWritten.CollectOverAsWrittenThrows` | content.js:41-56 | the loop is abandoned iff one of its text nodes throws |
| `EngineAsWritten.CollectOverAsWrittenValue` | content.js:41-56 | a loop that completes collects what the corrected loop collects |
| `EngineAsWritten.ScanAsWritten` | content.js:30-64 | as written: a scan that completes keeps the keywords and switch, only adds marks, and keeps displays consistent |
| `EngineAsWritten.ScanAsWrittenThrowsIff` | content.js:30-64 | `checkContent` as written throws iff there is a body-level match; otherwise it equals the corrected scan of the live, already-marked page |
| `EngineAsWritten.FirstScanAgrees` | content.js:66 | the first scan, with nothing yet marked and no body-level match, equals the corrected scan |
| `EngineAsWritten.BodyLevelMatchAbortsScan` | content.js:49 | a body-level match aborts the as-written scan; the corrected scan marks the body |
| `EngineAsWritten.LoadAsWritten` | content.js:3-66 | as written: a start-up that completes uses the stored keywords (default empty) and `siteFilters[host] ?? true`, with consistent displays |
| `EngineAsWritten.LoadAsWrittenAgrees` | content.js:3-66 | start-up as written fails iff there is a body-level match; otherwise it equals the corrected start-up |
| `EngineAsWritten.ScanOrKeep` | content.js:87-94 | a scan at the end of a handler keeps the keywords and switch, only adds marks and keeps displays consistent, whether or not it throws |
| `EngineAsWritten.ScanOrKeepAgrees` | content.js:87-94 | a thrown scan leaves the handler's state as it was; otherwise the result is the corrected scan of the live page |
| `EngineAsWritten.OnKeywordsChangedAsWritten` | content.js:91-95 | as written: the new list (or empty) is stored even when the scan throws; the switch is untouched; marks only grow |
| `EngineAsWritten.OnSiteFiltersChangedAsWritten` | content.js:80-89 | as written: a missing map throws and changes nothing; otherwise the switch becomes the host's stored value and every marked element is restyled, even when the scan then throws |
| `EngineAsWritten.OnStorageChangedAsWritten` | content.js:76-99 | as written: non-`sync` events do nothing; displays stay consistent; marks only grow |
| `EngineAsWritten.KeywordsBranchAgrees` | content.js:91-95 | the as-written keywords branch only stores the list on a body-level match, and otherwise equals the corrected branch run on the live page |
| `EngineAsWritten.SwitchBranchAgrees` | content.js:82-88 | the as-written switch branch only restyles on a body-level match, and otherwise equals the corrected branch run on the live page |
| `EngineAsWritten.StorageEventKeepsSettings` | content.js:76-99 | for every event and page, the as-written and corrected handlers end with the same keyword list and the same switch |
| `RescanExample.FirstScanMarksCard` | content.js:41-62 | on the example page with filtering on, the first scan marks exactly the matching span and its card and sets both displays to `none` |
| `RescanExample.RescanMarksSection` | content.js:21-22 | on the example page with filtering on, a second as-written scan marks the whole section, which the first scan left unmarked and without a display, and sets its display to `none` |
| `RescanExample.CorrectedRescanMarksNothingNew` | content.js:68-74 | on the same page, the corrected rescan marks exactly what the first scan marked |
| `Popup.ToggleAfterInit` | popup.js:17-63 | corrected: toggling right after the popup opens stores, for this host, the opposite of the setting the page read |
| `Popup.ParseKeywords` | popup.js:29-31 | every parsed keyword is non-empty, trimmed and free of commas |
| `Popup.ParseJoined` | popup.js:31 | parsing a comma-join of well-formed keywords gives them back, in order |
| `Popup.ParseOne` | popup.js:31 | a single well-formed keyword parses to itself |
| `Popup.AddKeyword` | popup.js:28-39 | blank input changes nothing; otherwise the stored and shown list is duplicate-free, holds exactly the old and the new keywords, and the input box is cleared; the switch is untouched |
| `Popup.AddKeepsOrder` | popup.js:33 | adding keeps the stored list as a prefix of the new list |
| `Popup.AddTwiceIsAddOnce` | popup.js:28-39 | submitting the same input twice stores the same list as submitting it once |
| `Popup.AddOneAppends` | popup.js:33-35 | a new single keyword is appended at the end, in storage and on screen |
| `Popup.RemoveKeyword` | popup.js:41-48 | every copy of the keyword is gone; every other keyword keeps its multiplicity and order; storage and screen agree |
| `Popup.RemoveUndoesAdd` | popup.js:28-48 | removing a freshly added keyword restores the stored list |
| `Popup.RemoveIdempotent` | popup.js:41-48 | removing twice is removing once |
| `Popup.ToggleFilter` | popup.js:53-63 | corrected: the switch flips and the flipped value is stored under this host's key; every other host's entry is unchanged; keywords are untouched |
| `Popup.ToggleFilterAsWritten` | popup.js:53-63 | as written: fails exactly when no map is stored; otherwise the switch flips, the flipped value is stored under this host's key, and every other entry and the keywords are unchanged |
| `Popup.ToggleAsWrittenNeedsStoredMap` | popup.js:56-57 | as written, toggling fails when no site map is stored, and no popup action ever creates one |
| `Popup.ToggleAgreesWhenStored` | popup.js:56-60 | with a stored map, the as-written toggle equals the corrected one |
| `Popup.ToggleTwice` | popup.js:53-63 | corrected: toggling twice restores the view and the stored switch for the host |
| `Popup.ToggleAfterInitAsWritten` | popup.js:17-63 | as written: toggling right after the popup opens fails and stores nothing exactly when no map is stored; otherwise it stores, for this host, the opposite of the setting the page read |
| `Popup.FirstToggleOnFreshProfile` | popup.js:53-63 | corrected: on a profile with nothing stored, the first toggle turns filtering off and stores `{host: false}` |
| `Extension.PopupShowsPageSwitch` | popup.js:21-23 | the popup's switch and the page's start-up switch agree for the same host and storage |
| `Extension.ToggleReachesPage` | popup.js:56-59 | after a toggle, the page's switch equals the popup's and its displays are consistent |
| `Extension.AddReachesPage` | popup.js:33-35 | after adding, the page scans with exactly the list the popup shows |
| `Extension.RemoveReachesPage` | popup.js:43-45 | after removing, the page's list lacks the keyword; every mark stays and every existing display keeps its value, so nothing already hidden reappears |

## Left out

- `Strings.Lower`: folds ASCII letters only. `toLowerCase` folds all of Unicode, so `Keywords.HasKeyword` and `Keywords.ContainsKeywords` are exact only for ASCII case differences.
- Layout: rendered sizes are fixed numbers. Hiding an element does not re-lay out the page, and floating-point rounding of `width * height` is not modelled (reals are exact).
- `MutationObserver` (`content.js:68-74`): a mutation is modelled as a scan of the current page. Which mutations fire the observer, and element identity across structural changes, are not modelled. Marked paths refer to the page they were collected on.
- Asynchronous timing: every callback runs to completion in the order stated above. Interleavings of `chrome.storage.sync.get`/`set` callbacks with other events are not modelled.
- URL parsing (`getDomain`) and `chrome.tabs.query`: the host name is a parameter.
- Console logging (`console.group`, `console.log`, `console.info`): no effect on state. `containsKeywords` is used only for logging; it is modelled as a function with its own lemmas.
- The Knockout bindings, `isFilterOn` and `backgroundColor` labels (`popup.js:1-6`, `50-51`, `65-71`): display only.
- `document.querySelectorAll(".redaction-filter")` (`content.js:84`) is modelled as the set of elements this script marked. Page elements that already carry that class themselves are not modelled.
- `null` storage values are treated like absent ones. Values of the wrong type are not modelled.
- Other extension scripts that might write `siteFilters` are not part of this model.
- Resolver.Repeats: a class attribute is a string, and two elements are alike when their tags and class strings are equal. On an SVG element `className` is an `SVGAnimatedString` object, and `===` compares such objects by identity, so in `content.js:22` an SVG element never matches a sibling and never repeats. The model has no SVG elements, so it would treat two `<g class="bar">` siblings as repeating where the code climbs past them.
- Popup.ToggleAfterInit: its contract is for the corrected switch, which defaults a missing map to `{}`. As written (`popup.js:56-57`) the toggle throws and stores nothing when no map is stored; that case is `Popup.ToggleAfterInitAsWritten`, and `Popup.ToggleAgreesWhenStored` relates the two when a map is stored.
- Popup.ToggleTwice: its contract is for the corrected switch; as written, neither toggle stores anything when no map is stored (`Popup.ToggleAsWrittenNeedsStoredMap`), and with a map stored the two agree (`Popup.ToggleAgreesWhenStored`).
- Engine.Load: its contract is for the corrected scan, which never throws; on a body-level match it marks the body. The as-written start-up is `EngineAsWritten.LoadAsWritten`, related to it by `EngineAsWritten.LoadAsWrittenAgrees`: it fails on such a page, marking nothing and registering neither the observer nor the storage listener.
- Engine.OnKeywordsChanged: its contract is for the corrected scan, which reads the original page and never throws. The as-written branch is `EngineAsWritten.OnKeywordsChangedAsWritten`, related to it by `EngineAsWritten.KeywordsBranchAgrees`.
- Engine.OnSiteFiltersChanged: its contract is for the corrected scan. The as-written callback is `EngineAsWritten.OnSiteFiltersChangedAsWritten`, related to it by `EngineAsWritten.SwitchBranchAgrees`.
- Engine.OnStorageChanged: its contract is for the corrected scan. The as-written listener is `EngineAsWritten.OnStorageChangedAsWritten`: a body-level match abandons the scan but keeps the settings (`EngineAsWritten.StorageEventKeepsSettings`).

## Findings

| source | as written | input that shows it | evidently intended | confidence | as-written member | corrected member |
|---|---|---|---|---|---|---|
| content.js:19-21 | A text node directly in the body makes `getRepeatingAncestor(document.body)` enter the loop, because the body's parent is HTML, not BODY. `parent.parentElement` is then `null`, and `.children` throws. The exception abandons the whole `checkContent`: nothing is marked. On the first call (line 66) the observer and the storage listener (lines 68-99) are never registered. | keywords `["x"]`; the body's first child is the text node `"x"`; the body renders smaller than half the viewport (a short page) | `getRepeatingAncestor` returns `null` when there is no ancestor below the body, as it does for every other element | medium (not executed) | `EngineAsWritten.ScanAsWrittenThrowsIff` | `Resolver.BodyHasNoRepeatingAncestor` |
| content.js:21-22 | Later scans compare `className` strings that already carry the `redaction-filter` class added at line 60. A marked card no longer equals its unmarked twin, so the walk climbs to an ancestor that does repeat. A rescan triggered by any unrelated DOM mutation then hides a whole section. | `RescanExample.Page`: a section with a matching card and an empty twin card, next to an empty twin section; keyword `"x"` | re-scanning an unchanged page marks nothing new | medium (not executed) | `RescanExample.RescanMarksSection` | `Engine.ScanIdempotent` |
| popup.js:56-57 | `toggleFilter` destructures `siteFilters` without the `= {}` default that `init` and the content script use. On a profile where nothing has stored the map, `siteFilters[domain] = ...` throws, so the switch cannot be turned off from the popup. | storage with no `siteFilters` key; any host | the first toggle stores `{host: false}` and turns filtering off | medium (not executed) | `Popup.ToggleAsWrittenNeedsStoredMap` | `Popup.FirstToggleOnFreshProfile` |

=== FILE: class_list.dfy ===
/** The `class` attribute as a DOMTokenList, far enough to say what
    `classList.add("redaction-filter")` does to an element's `className`:
    the attribute is parsed into an ordered set of tokens (split on ASCII
    whitespace, duplicates dropped), the marker is appended when absent, and
    the set is written back joined by single spaces. */
module ClassList {
  import opened Seqs
  import opened Strings

  /** The class name the engine marks redacted elements with (content.js). */
  const Marker: string := "redaction-filter"

  /** ASCII whitespace in the sense of the DOM's ordered set parser. */
  predicate IsAsciiWhitespace(c: char) {
    c == '\t' || c == '\n' || c == '\U{C}' || c == '\r' || c == ' '
  }

  /** A class token: non-empty, without ASCII whitespace. */
  predicate IsToken(t: string) {
    t != [] && TokenLength(t) == |t|
  }

  /** `s` without its leading ASCII whitespace. */
  function SkipWhitespace(s: string): (r: string)
    ensures |r| <= |s| && r == s[|s| - |r|..]
    ensures r == [] || !IsAsciiWhitespace(r[0])
  {
    if s != [] && IsAsciiWhitespace(s[0]) then SkipWhitespace(s[1..]) else s
  }

  /** Length of the run of non-whitespace characters that starts `s`. */
  function TokenLength(s: string): (n: nat)
    ensures n <= |s|
    ensures forall i :: 0 <= i < n ==> !IsAsciiWhitespace(s[i])
    ensures n == |s| || IsAsciiWhitespace(s[n])
  {
    if s == [] || IsAsciiWhitespace(s[0]) then 0 else 1 + TokenLength(s[1..])
  }

  /** The tokens of a class attribute, in order (duplicates kept). */
  function SplitTokens(s: string): (r: seq<string>)
    ensures forall i :: 0 <= i < |r| ==> IsToken(r[i])
    decreases |s|
  {
    var t := SkipWhitespace(s);
    if t == [] then []
    else
      var n := TokenLength(t);
      assert n > 0;
      var tok, rest := t[..n], SplitTokens(t[n..]);
      TokenLengthPrefix(t, n);
      var r := [tok] + rest;
      forall i | 0 <= i < |r| ensures IsToken(r[i]) {
        if i > 0 {
          assert r[i] == rest[i - 1];
        }
      }
      r
  }

  /** The ordered set serializer: tokens joined by single spaces. */
  function Serialize(tokens: seq<string>): string {
    if tokens == [] then "" else Join(tokens, ' ')
  }

  /** `className` after `classList.add(Marker)`. */
  function AddMarker(cls: string): string {
    Serialize(Insert(Dedup(SplitTokens(cls)), Marker))
  }

  /** A whitespace-free string followed by whitespace (or nothing) starts
      with a token exactly its length. */
  lemma {:induction false} TokenLengthOfToken(t: string, rest: string)
    requires TokenLength(t) == |t|
    requires rest == [] || IsAsciiWhitespace(rest[0])
    ensures TokenLength(t + rest) == |t|
  {
    if t != [] {
      assert (t + rest)[1..] == t[1..] + rest;
      TokenLengthOfToken(t[1..], rest);
    } else {
      assert t + rest == rest;
    }
  }

  /** The leading run of `s` is itself a whitespace-free string. */
  lemma {:induction false} TokenLengthPrefix(s: string, n: nat)
    requires n == TokenLength(s)
    ensures TokenLength(s[..n]) == n
  {
    if n > 0 {
      assert s[..n][1..] == s[1..][..n - 1];
      TokenLengthPrefix(s[1..], n - 1);
    }
  }

  /** A token followed by whitespace (or nothing) is parsed as the first
      token. */
  lemma SplitLeadingToken(t: string, rest: string)
    requires IsToken(t)
    requires rest == [] || IsAsciiWhitespace(rest[0])
    ensures SplitTokens(t + rest) == [t] + SplitTokens(rest)
  {
    assert SkipWhitespace(t + rest) == t + rest;
    TokenLengthOfToken(t, rest);
    assert (t + rest)[..|t|] == t && (t + rest)[|t|..] == rest;
  }

  /** Every element of `tokens` is a token. */
  ghost predicate AllTokens(tokens: seq<string>) {
    forall i :: 0 <= i < |tokens| ==> IsToken(tokens[i])
  }

  lemma SplitSerializeSingle(t: string)
    requires IsToken(t)
    ensures SplitTokens(Serialize([t])) == [t]
  {
    SplitLeadingToken(t, "");
    assert t + "" == t;
    assert SplitTokens("") == [];
  }

  lemma SplitSerializeCons(t: string, more: seq<string>)
    requires IsToken(t) && more != []
    ensures SplitTokens(Serialize([t] + more)) == [t] + SplitTokens(Serialize(more))
  {
    var rest := [' '] + Serialize(more);
    assert ([t] + more)[1..] == more;
    assert Serialize([t] + more) == t + rest;
    SplitLeadingToken(t, rest);
    assert SkipWhitespace(rest) == SkipWhitespace(rest[1..]);
    assert rest[1..] == Serialize(more);
  }

  /** Parsing the serialization of a list of tokens gives the list back. */
  lemma {:induction false} SplitSerialize(tokens: seq<string>)
    requires AllTokens(tokens)
    ensures SplitTokens(Serialize(tokens)) == tokens
  {
    if tokens != [] {
      var t, more := tokens[0], tokens[1..];
      assert tokens == [t] + more;
      assert IsToken(t);
      if more == [] {
        SplitSerializeSingle(t);
      } else {
        forall i | 0 <= i < |more| ensures IsToken(more[i]) {
          assert more[i] == tokens[i + 1];
        }
        SplitSerialize(more);
        SplitSerializeCons(t, more);
      }
    }
  }

  /** The token list `AddMarker` writes back: duplicate-free tokens, the
      old ones and the marker. */
  lemma MarkedTokens(cls: string)
    ensures var l := Insert(Dedup(SplitTokens(cls)), Marker);
            && NoDup(l)
            && (forall t :: t in l <==> t in SplitTokens(cls) || t == Marker)
            && SplitTokens(AddMarker(cls)) == l
  {
    var d := Dedup(SplitTokens(cls));
    InsertNoDup(d, Marker);
    MarkerIsToken();
    MarkedAllTokens(SplitTokens(cls), Marker);
    SplitSerialize(Insert(d, Marker));
  }

  lemma MarkerIsToken()
    ensures IsToken(Marker)
  {
    WhitespaceFreeIsToken(Marker);
  }

  lemma {:induction false} WhitespaceFreeIsToken(t: string)
    requires forall i :: 0 <= i < |t| ==> !IsAsciiWhitespace(t[i])
    ensures TokenLength(t) == |t|
  {
    if t != [] {
      WhitespaceFreeIsToken(t[1..]);
    }
  }

  lemma MarkedAllTokens(tokens: seq<string>, m: string)
    requires AllTokens(tokens) && IsToken(m)
    ensures AllTokens(Insert(Dedup(tokens), m))
  {
    var d := Dedup(tokens);
    var l := Insert(d, m);
    InsertNoDup(d, m);
    forall i | 0 <= i < |l| ensures IsToken(l[i]) {
      var x := l[i];
      if x != m {
        assert x in tokens;
        var j :| 0 <= j < |tokens| && tokens[j] == x;
      }
    }
  }

  /** A lone token is its own token list. */
  lemma SingleTokenSplit(t: string)
    requires IsToken(t)
    ensures SplitTokens(t) == [t]
  {
    var e: string := [];
    assert t + e == t;
    SplitLeadingToken(t, e);
    assert SplitTokens(e) == [];
  }

  /** Adding the marker twice is adding it once. */
  lemma AddMarkerIdempotent(cls: string)
    ensures AddMarker(AddMarker(cls)) == AddMarker(cls)
  {
    var l := Insert(Dedup(SplitTokens(cls)), Marker);
    MarkedTokens(cls);
    assert Marker in l;
    FirstOccurrencesOfNoDup(l);
    calc {
      AddMarker(AddMarker(cls));
      Serialize(Insert(Dedup(SplitTokens(AddMarker(cls))), Marker));
      { assert SplitTokens(AddMarker(cls)) == l; }
      Serialize(Insert(Dedup(l), Marker));
      { assert Dedup(l) == l; }
      Serialize(Insert(l, Marker));
    }
  }

  /** After `AddMarker` the attribute holds exactly the old tokens and the
      marker. */
  lemma AddMarkerTokens(cls: string)
    ensures forall t :: t in SplitTokens(AddMarker(cls)) <==>
                        t in SplitTokens(cls) || t == Marker
  {
    MarkedTokens(cls);
  }

  /** An attribute that does not carry the marker token is changed by
      `AddMarker`. */
  lemma AddMarkerChanges(cls: string)
    requires Marker !in SplitTokens(cls)
    ensures AddMarker(cls) != cls
  {
    AddMarkerTokens(cls);
  }
}

=== FILE: dom.dfy ===
/** The page as the content script sees it: an immutable tree under
    `document.body`, elements addressed by their child-index path from the
    body, each element with its tag, its class attribute and its rendered
    size; plus the viewport and the size gate. */
module Dom {
  import opened Wrappers
  import opened ClassList

  /** Child indices from `document.body` down to a node; [] is the body. */
  type Path = seq<nat>

  datatype Node =
    | Text(value: string)
    | Element(tag: string, cls: string, width: real, height: real, children: seq<Node>)

  /** `document.body`: its class attribute, rendered size and child nodes. */
  datatype Document = Document(bodyClass: string, bodyWidth: real, bodyHeight: real, content: seq<Node>)

  /** `window.innerWidth` and `window.innerHeight`. */
  datatype Viewport = Viewport(width: int, height: int)

  const BodyTag: string := "BODY"

  function Body(d: Document): Node {
    Element(BodyTag, d.bodyClass, d.bodyWidth, d.bodyHeight, d.content)
  }

  function NodeAt(n: Node, p: Path): Option<Node>
    decreases |p|
  {
    if p == [] then Some(n)
    else if n.Element? && p[0] < |n.children| then NodeAt(n.children[p[0]], p[1..])
    else None
  }

  function At(d: Document, p: Path): Option<Node> {
    NodeAt(Body(d), p)
  }

  predicate IsElementAt(d: Document, p: Path) {
    At(d, p).Some? && At(d, p).value.Element?
  }

  predicate IsTextAt(d: Document, p: Path) {
    At(d, p).Some? && At(d, p).value.Text?
  }

  /** `tagName` of the element at `p` ("" when there is none). */
  function TagAt(d: Document, p: Path): string {
    if IsElementAt(d, p) then At(d, p).value.tag else ""
  }

  /** `className` of the element at `p` ("" when there is none). */
  function ClassAt(d: Document, p: Path): string {
    if IsElementAt(d, p) then At(d, p).value.cls else ""
  }

  /** Child nodes of the element at `p` ([] when there is none). */
  function ChildrenAt(d: Document, p: Path): seq<Node> {
    if IsElementAt(d, p) then At(d, p).value.children else []
  }

  /** `nodeValue` of the text node at `p` ("" when there is none). */
  function TextAt(d: Document, p: Path): string {
    if IsTextAt(d, p) then At(d, p).value.value else ""
  }

  function Parent(p: Path): Path
    requires p != []
  {
    p[..|p| - 1]
  }

  /** Every proper prefix of the path of an existing node leads to an
      element: only elements have children. */
  lemma {:induction false} NodeAtPrefix(n: Node, p: Path, k: nat)
    requires NodeAt(n, p).Some? && k < |p|
    ensures NodeAt(n, p[..k]).Some? && NodeAt(n, p[..k]).value.Element?
  {
    if k > 0 {
      NodeAtPrefix(n.children[p[0]], p[1..], k - 1);
      assert p[..k][0] == p[0] && p[..k][1..] == p[1..][..k - 1];
    }
  }

  lemma ParentIsElement(d: Document, p: Path)
    requires At(d, p).Some? && p != []
    ensures IsElementAt(d, Parent(p))
  {
    NodeAtPrefix(Body(d), p, |p| - 1);
  }

  lemma AncestorIsElement(d: Document, p: Path, k: nat)
    requires At(d, p).Some? && k < |p|
    ensures IsElementAt(d, p[..k])
  {
    NodeAtPrefix(Body(d), p, k);
  }

  /** The node at `p + [i]` is child `i` of the node at `p`. */
  lemma {:induction false} NodeAtSnoc(n: Node, p: Path, i: nat)
    requires NodeAt(n, p).Some? && NodeAt(n, p).value.Element?
    ensures NodeAt(n, p + [i]) ==
            if i < |NodeAt(n, p).value.children| then Some(NodeAt(n, p).value.children[i]) else None
  {
    if p != [] {
      assert (p + [i])[0] == p[0] && (p + [i])[1..] == p[1..] + [i];
      NodeAtSnoc(n.children[p[0]], p[1..], i);
    } else {
      assert p + [i] == [i];
    }
  }

  // ---------------------------------------------------------------------
  // The text walk: `document.createTreeWalker(document.body, SHOW_TEXT)`.

  /** `ps` with `j` put in front of every path. */
  function Prepend(j: nat, ps: seq<Path>): (r: seq<Path>)
    ensures |r| == |ps|
    ensures forall k :: 0 <= k < |ps| ==> r[k] == [j] + ps[k]
  {
    seq(|ps|, k requires 0 <= k < |ps| => [j] + ps[k])
  }

  /** Paths, relative to `n`, of the text nodes in the subtree of `n`, in
      document (pre-)order. */
  function TextsOf(n: Node): seq<Path>
    decreases n
  {
    match n
    case Text(_) => [[]]
    case Element(_, _, _, _, cs) => ChildTexts(cs, 0)
  }

  function ChildTexts(cs: seq<Node>, i: nat): seq<Path>
    decreases cs, |cs| - i
  {
    if i >= |cs| then [] else Prepend(i, TextsOf(cs[i])) + ChildTexts(cs, i + 1)
  }

  /** The text nodes the content script's walker visits, in order. */
  function Texts(d: Document): seq<Path> {
    TextsOf(Body(d))
  }

  /** `x` comes before `y` in document order, neither containing the other. */
  predicate Before(x: Path, y: Path)
    decreases |x|
  {
    && x != [] && y != []
    && (x[0] < y[0] || (x[0] == y[0] && Before(x[1..], y[1..])))
  }

  ghost predicate InDocumentOrder(ps: seq<Path>) {
    forall a, b :: 0 <= a < b < |ps| ==> Before(ps[a], ps[b])
  }

  /** Every path the walk yields leads to a text node. */
  lemma {:induction false} TextsOfSound(n: Node, p: Path)
    requires p in TextsOf(n)
    ensures NodeAt(n, p).Some? && NodeAt(n, p).value.Text?
    decreases n, 1
  {
    if n.Element? {
      ChildTextsSound(n.children, 0, p);
      var j :| 0 <= j < |n.children| && p[0] == j && p[1..] in TextsOf(n.children[j]);
      TextsOfSound(n.children[j], p[1..]);
    }
  }

  lemma {:induction false} ChildTextsSound(cs: seq<Node>, i: nat, p: Path)
    requires p in ChildTexts(cs, i)
    ensures p != [] && i <= p[0] < |cs| && p[1..] in TextsOf(cs[p[0]])
    decreases cs, |cs| - i
  {
    var pre := Prepend(i, TextsOf(cs[i]));
    if p in pre {
      var k :| 0 <= k < |pre| && pre[k] == p;
      assert p == [i] + TextsOf(cs[i])[k];
      assert p[1..] == TextsOf(cs[i])[k];
    } else {
      ChildTextsSound(cs, i + 1, p);
    }
  }

  /** Every text node is visited by the walk. */
  lemma {:induction false} TextsOfComplete(n: Node, p: Path)
    requires NodeAt(n, p).Some? && NodeAt(n, p).value.Text?
    ensures p in TextsOf(n)
    decreases n
  {
    if p == [] {
      assert TextsOf(n) == [[]];
    } else {
      var j := p[0];
      TextsOfComplete(n.children[j], p[1..]);
      ChildTextsContain(n.children, 0, j, p[1..]);
      assert [j] + p[1..] == p;
    }
  }

  lemma {:induction false} ChildTextsContain(cs: seq<Node>, i: nat, j: nat, q: Path)
    requires i <= j < |cs| && q in TextsOf(cs[j])
    ensures [j] + q in ChildTexts(cs, i)
    decreases |cs| - i
  {
    if i == j {
      var k :| 0 <= k < |TextsOf(cs[j])| && TextsOf(cs[j])[k] == q;
      assert Prepend(j, TextsOf(cs[j]))[k] == [j] + q;
    } else {
      ChildTextsContain(cs, i + 1, j, q);
    }
  }

  /** The walk yields text nodes in document order, each once. */
  lemma {:induction false} TextsOfOrdered(n: Node)
    ensures InDocumentOrder(TextsOf(n))
    decreases n, 1
  {
    if n.Element? {
      ChildTextsOrdered(n.children, 0);
    }
  }

  lemma {:induction false} ChildTextsOrdered(cs: seq<Node>, i: nat)
    ensures InDocumentOrder(ChildTexts(cs, i))
    decreases cs, |cs| - i
  {
    if i < |cs| {
      var inner := TextsOf(cs[i]);
      var pre := Prepend(i, inner);
      var rest := ChildTexts(cs, i + 1);
      var all := pre + rest;
      TextsOfOrdered(cs[i]);
      ChildTextsOrdered(cs, i + 1);
      forall a, b | 0 <= a < b < |all| ensures Before(all[a], all[b]) {
        if b < |pre| {
          assert all[a] == [i] + inner[a] && all[b] == [i] + inner[b];
          assert Before(inner[a], inner[b]);
          assert ([i] + inner[a])[1..] == inner[a];
          assert ([i] + inner[b])[1..] == inner[b];
        } else if a < |pre| {
          assert all[b] == rest[b - |pre|];
          assert all[b] in ChildTexts(cs, i + 1);
          ChildTextsSound(cs, i + 1, all[b]);
        } else {
          assert all[a] == rest[a - |pre|] && all[b] == rest[b - |pre|];
        }
      }
    }
  }

  /** The text walk of a document is exactly its text nodes, in document
      order. */
  lemma TextsExact(d: Document)
    ensures forall t :: t in Texts(d) <==> IsTextAt(d, t)
    ensures InDocumentOrder(Texts(d))
  {
    forall t | t in Texts(d) ensures IsTextAt(d, t) {
      TextsOfSound(Body(d), t);
    }
    forall t | IsTextAt(d, t) ensures t in Texts(d) {
      TextsOfComplete(Body(d), t);
    }
    TextsOfOrdered(Body(d));
  }

  // ---------------------------------------------------------------------
  // The size gate.

  /** `isSmallEnough`: the rendered area is less than half the viewport's.
      An element with no rendered area (a zero width or height) passes
      whenever the viewport has a positive area. */
  function IsSmallEnough(vp: Viewport, width: real, height: real): (r: bool)
    ensures width == 0.0 || height == 0.0 ==> (r <==> vp.width * vp.height > 0)
  {
    width * height < 0.5 * ((vp.width * vp.height) as real)
  }

  /** The element at `p` passes the size gate. */
  predicate SmallAt(d: Document, vp: Viewport, p: Path) {
    IsElementAt(d, p) && IsSmallEnough(vp, At(d, p).value.width, At(d, p).value.height)
  }

  /** For whole-pixel sizes the gate is `2 * w * h < W * H`. */
  lemma SizeGateIntegerForm(vp: Viewport, w: int, h: int)
    ensures IsSmallEnough(vp, w as real, h as real) <==> 2 * w * h < vp.width * vp.height
  {
    assert (w as real) * (h as real) == (w * h) as real;
  }

  // ---------------------------------------------------------------------
  // The marker class as the page sees it.

  /** The subtree of `n` (found at `at`) after `classList.add(Marker)` on
      every element whose path is in `marked`. */
  function MarkNode(n: Node, at: Path, marked: set<Path>): Node
    decreases n
  {
    match n
    case Text(_) => n
    case Element(tag, cls, w, h, cs) =>
      Element(tag, if at in marked then AddMarker(cls) else cls, w, h,
              seq(|cs|, j requires 0 <= j < |cs| => MarkNode(cs[j], at + [j], marked)))
  }

  /** The live document after the marker class has been added to the
      elements in `marked`; nothing else about it changes. */
  function ApplyMarkers(d: Document, marked: set<Path>): Document {
    var b := MarkNode(Body(d), [], marked);
    Document(b.cls, d.bodyWidth, d.bodyHeight, b.children)
  }

  /** Marking changes class attributes only: the node at every path is the
      old node with its own subtree marked. */
  lemma {:induction false} MarkNodeAt(n: Node, at: Path, marked: set<Path>, p: Path)
    ensures NodeAt(MarkNode(n, at, marked), p) ==
            if NodeAt(n, p).Some? then Some(MarkNode(NodeAt(n, p).value, at + p, marked)) else None
    decreases |p|
  {
    if p == [] {
      assert at + p == at;
    } else if n.Element? && p[0] < |n.children| {
      MarkNodeAt(n.children[p[0]], at + [p[0]], marked, p[1..]);
      assert at + [p[0]] + p[1..] == at + p;
    }
  }

  lemma ApplyMarkersAt(d: Document, marked: set<Path>, p: Path)
    ensures At(ApplyMarkers(d, marked), p) ==
            if At(d, p).Some? then Some(MarkNode(At(d, p).value, p, marked)) else None
  {
    assert Body(ApplyMarkers(d, marked)) == MarkNode(Body(d), [], marked);
    MarkNodeAt(Body(d), [], marked, p);
    assert [] + p == p;
  }

  /** Marking nothing changes nothing. */
  lemma {:induction false} MarkNothing(n: Node, at: Path)
    ensures MarkNode(n, at, {}) == n
    decreases n
  {
    if n.Element? {
      var cs := n.children;
      var ms := seq(|cs|, j requires 0 <= j < |cs| => MarkNode(cs[j], at + [j], {}));
      forall j | 0 <= j < |cs| ensures ms[j] == cs[j] {
        MarkNothing(cs[j], at + [j]);
      }
      assert ms == cs;
    }
  }

  lemma ApplyNoMarkers(d: Document)
    ensures ApplyMarkers(d, {}) == d
  {
    MarkNothing(Body(d), []);
  }

  /** Marking changes no text node: the walk visits the same paths. */
  lemma {:induction false} TextsOfMarked(n: Node, at: Path, marked: set<Path>)
    ensures TextsOf(MarkNode(n, at, marked)) == TextsOf(n)
    decreases n
  {
    if n.Element? {
      ChildTextsMarked(n.children, at, marked, 0);
    }
  }

  lemma {:induction false} ChildTextsMarked(cs: seq<Node>, at: Path, marked: set<Path>, i: nat)
    ensures ChildTexts(seq(|cs|, j requires 0 <= j < |cs| => MarkNode(cs[j], at + [j], marked)), i) ==
            ChildTexts(cs, i)
    decreases cs, |cs| - i
  {
    var ms := seq(|cs|, j requires 0 <= j < |cs| => MarkNode(cs[j], at + [j], marked));
    if i < |cs| {
      TextsOfMarked(cs[i], at + [i], marked);
      ChildTextsMarked(cs, at, marked, i + 1);
      assert ms[i] == MarkNode(cs[i], at + [i], marked);
    }
  }

  lemma TextsMarked(d: Document, marked: set<Path>)
    ensures Texts(ApplyMarkers(d, marked)) == Texts(d)
  {
    assert Body(ApplyMarkers(d, marked)) == MarkNode(Body(d), [], marked);
    TextsOfMarked(Body(d), [], marked);
  }

  /** Marking leaves the tree's shape, tag names, sizes and text alone and
      changes only the class attributes of the marked elements. */
  lemma MarkingKeepsShape(d: Document, marked: set<Path>, vp: Viewport, p: Path)
    ensures var live := ApplyMarkers(d, marked);
            && IsElementAt(live, p) == IsElementAt(d, p)
            && IsTextAt(live, p) == IsTextAt(d, p)
            && TagAt(live, p) == TagAt(d, p)
            && TextAt(live, p) == TextAt(d, p)
            && SmallAt(live, vp, p) == SmallAt(d, vp, p)
            && |ChildrenAt(live, p)| == |ChildrenAt(d, p)|
  {
    ApplyMarkersAt(d, marked, p);
  }

  /** Marking changes the class attribute of exactly the marked elements,
      as `AddMarker` does. */
  lemma MarkingSetsClass(d: Document, marked: set<Path>, p: Path)
    ensures ClassAt(ApplyMarkers(d, marked), p) ==
            if p in marked && IsElementAt(d, p) then AddMarker(ClassAt(d, p)) else ClassAt(d, p)
  {
    ApplyMarkersAt(d, marked, p);
  }

  lemma UnmarkedClassStays(d: Document, marked: set<Path>, p: Path)
    requires p !in marked
    ensures ClassAt(ApplyMarkers(d, marked), p) == ClassAt(d, p)
  {
    ApplyMarkersAt(d, marked, p);
  }

  /** A marked element whose class attribute lacked the marker token shows a
      different class attribute on the live page. */
  lemma MarkedClassDiffers(d: Document, marked: set<Path>, p: Path)
    requires p in marked && IsElementAt(d, p) && Marker !in SplitTokens(ClassAt(d, p))
    ensures ClassAt(ApplyMarkers(d, marked), p) != ClassAt(d, p)
  {
    MarkingSetsClass(d, marked, p);
    AddMarkerChanges(ClassAt(d, p));
  }
}

=== FILE: engine.dfy ===
/** The content script: `checkContent` (collect the elements to redact,
    then add the marker class and set their display), the size gate, the
    settings it starts from and the storage-change handler that reacts to
    new keywords and new per-site switches.

    Element identity is the path from the body. The scan reads the page's
    own class attributes, so a rescan resolves the same containers as the
    first scan did (see `EngineAsWritten` for the live-class behaviour). */
module Engine {
  import opened Wrappers
  import opened Seqs
  import opened Keywords
  import opened Settings
  import opened Dom
  import opened Resolver

  /** What the script keeps between events: the keyword list, whether
      redaction is on for this host, the elements that carry the marker
      class and the inline `style.display` the script gave each of them. */
  datatype EngineState = EngineState(
    keywords: seq<string>,
    filterEnabled: bool,
    marked: set<Path>,
    display: map<Path, string>)

  /** `filterEnabled ? "none" : ""`. */
  function DisplayFor(filterEnabled: bool): string {
    if filterEnabled then "none" else ""
  }

  /** Every marked element, and only those, has an inline display, and it
      agrees with the current switch. */
  ghost predicate Consistent(s: EngineState) {
    && s.display.Keys == s.marked
    && forall p :: p in s.display ==> s.display[p] == DisplayFor(s.filterEnabled)
  }

  // ---------------------------------------------------------------------
  // Collecting the elements to redact.

  /** The text node at `t` contains a keyword and its parent element passes
      the size gate, so the parent is matched. */
  predicate Counted(d: Document, vp: Viewport, keywords: seq<string>, t: Path) {
    && t != []
    && IsTextAt(d, t)
    && HasKeyword(keywords, TextAt(d, t))
    && SmallAt(d, vp, Parent(t))
  }

  /** `e` is pushed to `matched` by some text node: as that node's parent,
      or as the parent's repeating ancestor when that passes the gate too. */
  ghost predicate Recorded(d: Document, vp: Viewport, keywords: seq<string>, e: Path) {
    exists t :: Counted(d, vp, keywords, t) &&
      (e == Parent(t) || (RepeatingAncestor(d, Parent(t)) == Some(e) && SmallAt(d, vp, e)))
  }

  /** The elements one text node adds to `matched`. */
  function Contribution(d: Document, vp: Viewport, keywords: seq<string>, t: Path): (r: set<Path>)
    ensures r != {} ==> Counted(d, vp, keywords, t) && Parent(t) in r
  {
    if !Counted(d, vp, keywords, t) then {}
    else
      var e := Parent(t);
      match RepeatingAncestor(d, e)
      case Some(a) => if SmallAt(d, vp, a) then {e, a} else {e}
      case None => {e}
  }

  /** The loop over the tree walker's text nodes `ts`, in order. */
  function CollectOver(d: Document, vp: Viewport, keywords: seq<string>, ts: seq<Path>): set<Path> {
    UnionOver(ts, t => Contribution(d, vp, keywords, t))
  }

  /** The loop over `ts` is the loop over all but the last text node,
      followed by the last one. */
  lemma CollectOverSnoc(d: Document, vp: Viewport, keywords: seq<string>, ts: seq<Path>)
    requires ts != []
    ensures CollectOver(d, vp, keywords, ts) ==
            CollectOver(d, vp, keywords, ts[..|ts| - 1]) + Contribution(d, vp, keywords, ts[|ts| - 1])
  {
    var init := ts[..|ts| - 1];
    assert forall i :: 0 <= i < |init| ==> ts[i] == init[i];
  }

  /** The set of elements the corrected scan adds the marker class to. */
  function Collect(d: Document, vp: Viewport, keywords: seq<string>): (r: set<Path>)
    ensures forall e :: e in r <==> Recorded(d, vp, keywords, e)
  {
    CollectIsRecorded(d, vp, keywords);
    CollectOver(d, vp, keywords, Texts(d))
  }

  lemma CollectIsRecorded(d: Document, vp: Viewport, keywords: seq<string>)
    ensures forall e :: e in CollectOver(d, vp, keywords, Texts(d)) <==> Recorded(d, vp, keywords, e)
  {
    var ts := Texts(d);
    TextsExact(d);
    forall e | Recorded(d, vp, keywords, e)
      ensures exists i :: 0 <= i < |ts| && e in Contribution(d, vp, keywords, ts[i])
    {
      var t :| Counted(d, vp, keywords, t) &&
        (e == Parent(t) || (RepeatingAncestor(d, Parent(t)) == Some(e) && SmallAt(d, vp, e)));
      assert t in ts;
      var i :| 0 <= i < |ts| && ts[i] == t;
      ContributionIsRecorded(d, vp, keywords, t, e);
    }
    forall e | e in CollectOver(d, vp, keywords, ts) ensures Recorded(d, vp, keywords, e) {
      var i :| 0 <= i < |ts| && e in Contribution(d, vp, keywords, ts[i]);
      ContributionIsRecorded(d, vp, keywords, ts[i], e);
    }
  }

  /** One text node contributes its parent and the parent's repeating
      ancestor, when they pass the gate, and nothing else. */
  lemma ContributionIsRecorded(d: Document, vp: Viewport, keywords: seq<string>, t: Path, e: Path)
    ensures e in Contribution(d, vp, keywords, t) <==>
              Counted(d, vp, keywords, t) &&
              (e == Parent(t) || (RepeatingAncestor(d, Parent(t)) == Some(e) && SmallAt(d, vp, e)))
  {
  }

  /** Everything the scan marks is an element that passes the size gate. */
  lemma RecordedIsSmallElement(d: Document, vp: Viewport, keywords: seq<string>, e: Path)
    requires e in Collect(d, vp, keywords)
    ensures IsElementAt(d, e) && SmallAt(d, vp, e)
  {
  }

  /** Everything the scan marks contains a text node holding a keyword: it
      is that node's parent or one of its ancestors. */
  lemma RecordedContainsMatch(d: Document, vp: Viewport, keywords: seq<string>, e: Path)
    requires e in Collect(d, vp, keywords)
    ensures exists t :: IsTextAt(d, t) && HasKeyword(keywords, TextAt(d, t)) &&
                        |e| < |t| && t[..|e|] == e
  {
    var t :| Counted(d, vp, keywords, t) &&
      (e == Parent(t) || (RepeatingAncestor(d, Parent(t)) == Some(e) && SmallAt(d, vp, e)));
    if e != Parent(t) {
      var q := Parent(t);
      assert e == q[..|e|];
      assert t[..|e|] == q[..|e|];
    }
  }

  /** The parent of every keyword text node that passes the gate is marked,
      together with its repeating ancestor when that passes the gate. */
  lemma MatchedParentsAreMarked(d: Document, vp: Viewport, keywords: seq<string>, t: Path)
    requires Counted(d, vp, keywords, t)
    ensures Parent(t) in Collect(d, vp, keywords)
    ensures var a := RepeatingAncestor(d, Parent(t));
            a.Some? && SmallAt(d, vp, a.value) ==> a.value in Collect(d, vp, keywords)
  {
  }

  /** With an empty keyword list nothing is collected. */
  lemma NoKeywordsCollectNothing(d: Document, vp: Viewport)
    ensures Collect(d, vp, []) == {}
  {
  }

  /** An element that fails the size gate is never marked. */
  lemma LargeElementsUntouched(d: Document, vp: Viewport, keywords: seq<string>, e: Path)
    requires !SmallAt(d, vp, e)
    ensures e !in Collect(d, vp, keywords)
  {
    if e in Collect(d, vp, keywords) {
      RecordedIsSmallElement(d, vp, keywords, e);
    }
  }

  // ---------------------------------------------------------------------
  // Marking and the display switch.

  /** `matched.forEach`: add the marker class to each element of `ms` and
      set its display from the current switch. */
  function MarkAll(s: EngineState, ms: set<Path>): (r: EngineState)
    ensures r.keywords == s.keywords && r.filterEnabled == s.filterEnabled
    ensures r.marked == s.marked + ms
    ensures r.display.Keys == s.display.Keys + ms
    ensures forall p :: p in ms ==> r.display[p] == DisplayFor(s.filterEnabled)
    ensures forall p :: p in s.display && p !in ms ==> r.display[p] == s.display[p]
  {
    var disp := map p | p in s.display.Keys + ms ::
                  if p in ms then DisplayFor(s.filterEnabled) else s.display[p];
    s.(marked := s.marked + ms, display := disp)
  }

  /** Marking the same elements twice is marking them once. */
  lemma MarkAllIdempotent(s: EngineState, ms: set<Path>)
    ensures MarkAll(MarkAll(s, ms), ms) == MarkAll(s, ms)
  {
    var s1 := MarkAll(s, ms);
    var s2 := MarkAll(s1, ms);
    assert s2.marked == s1.marked;
    assert s2.display == s1.display;
  }

  /** `checkContent()` against the document `d` in viewport `vp`. */
  function Scan(s: EngineState, d: Document, vp: Viewport): (r: EngineState)
    ensures r.keywords == s.keywords && r.filterEnabled == s.filterEnabled
    ensures s.marked <= r.marked
    ensures forall e :: e in r.marked <==> e in s.marked || Recorded(d, vp, s.keywords, e)
  {
    MarkAll(s, Collect(d, vp, s.keywords))
  }

  /** Scanning keeps every marked element's display in step with the
      switch. */
  lemma ScanPreservesConsistent(s: EngineState, d: Document, vp: Viewport)
    requires Consistent(s)
    ensures Consistent(Scan(s, d, vp))
  {
  }

  /** A second scan of an unchanged page changes nothing. */
  lemma ScanIdempotent(s: EngineState, d: Document, vp: Viewport)
    ensures Scan(Scan(s, d, vp), d, vp) == Scan(s, d, vp)
  {
    MarkAllIdempotent(s, Collect(d, vp, s.keywords));
  }

  /** Setting every element that has the marker class to the display for
      `filterEnabled` (the `querySelectorAll(".redaction-filter")` loop). */
  function RefreshVisibility(s: EngineState, filterEnabled: bool): (r: EngineState)
    ensures Consistent(r)
    ensures r.keywords == s.keywords && r.marked == s.marked && r.filterEnabled == filterEnabled
  {
    s.(filterEnabled := filterEnabled, display := map p | p in s.marked :: DisplayFor(filterEnabled))
  }

  // ---------------------------------------------------------------------
  // Start-up and the storage-change handler.

  /** The stored-settings callback: default the missing keys, look up the
      switch for this host (default on) and run the first scan. */
  function Load(storedKeywords: Option<seq<string>>, storedSiteFilters: Option<SiteFilters>,
                host: string, d: Document, vp: Viewport): (r: EngineState)
    ensures Consistent(r)
    ensures r.keywords == storedKeywords.GetOr([])
    ensures r.filterEnabled == EnabledFor(storedSiteFilters.GetOr(map[]), host)
    ensures forall e :: e in r.marked <==> Recorded(d, vp, r.keywords, e)
  {
    var keywords := storedKeywords.GetOr([]);
    var enabled := EnabledFor(storedSiteFilters.GetOr(map[]), host);
    Scan(EngineState(keywords, enabled, {}, map[]), d, vp)
  }

  /** A host that has never been switched starts with redaction on. */
  lemma FreshHostIsFiltered(storedKeywords: Option<seq<string>>, storedSiteFilters: Option<SiteFilters>,
                            host: string, d: Document, vp: Viewport)
    requires storedSiteFilters.None? || host !in storedSiteFilters.value
    ensures Load(storedKeywords, storedSiteFilters, host, d, vp).filterEnabled
  {
  }

  /** The `keywords` branch: replace the list (`newValue || []`) and scan. */
  function OnKeywordsChanged(s: EngineState, newValue: Option<seq<string>>,
                             d: Document, vp: Viewport): (r: EngineState)
    ensures r.keywords == newValue.GetOr([]) && r.filterEnabled == s.filterEnabled
    ensures forall e :: e in r.marked <==> e in s.marked || Recorded(d, vp, r.keywords, e)
  {
    Scan(s.(keywords := newValue.GetOr([])), d, vp)
  }

  /** Removing keywords never un-redacts: marks and displays only grow. */
  lemma KeywordRemovalKeepsRedactions(s: EngineState, newValue: Option<seq<string>>,
                                      d: Document, vp: Viewport)
    requires Consistent(s)
    ensures var r := OnKeywordsChanged(s, newValue, d, vp);
            && s.marked <= r.marked
            && forall p :: p in s.display ==> p in r.display && r.display[p] == s.display[p]
  {
  }

  /** Clearing the keyword list marks nothing new. */
  lemma ClearedKeywordsMarkNothingNew(s: EngineState, d: Document, vp: Viewport)
    ensures OnKeywordsChanged(s, None, d, vp).marked == s.marked
    ensures OnKeywordsChanged(s, Some([]), d, vp).marked == s.marked
  {
    NoKeywordsCollectNothing(d, vp);
  }

  /** The `siteFilters` callback: re-read the map, recompute the switch,
      restyle every marked element and scan. When the key is missing from
      storage, reading a property of `undefined` throws before anything
      changes. */
  function OnSiteFiltersChanged(s: EngineState, stored: Option<SiteFilters>, host: string,
                                d: Document, vp: Viewport): (r: EngineState)
    ensures stored.None? ==> r == s
    ensures stored.Some? ==>
              && r.filterEnabled == EnabledFor(stored.value, host)
              && r.keywords == s.keywords
              && Consistent(r)
              && forall e :: e in r.marked <==> e in s.marked || Recorded(d, vp, s.keywords, e)
  {
    match stored
    case None => s
    case Some(siteFilters) =>
      var r := Scan(RefreshVisibility(s, EnabledFor(siteFilters, host)), d, vp);
      ScanPreservesConsistent(RefreshVisibility(s, EnabledFor(siteFilters, host)), d, vp);
      r
  }

  /** Switching redaction off for this host un-hides everything the script
      hid, and switching it back on hides it again. */
  lemma SwitchRestylesAllMarked(s: EngineState, siteFilters: SiteFilters, host: string,
                                d: Document, vp: Viewport, p: Path)
    requires p in s.marked
    ensures var r := OnSiteFiltersChanged(s, Some(siteFilters), host, d, vp);
            p in r.display && (r.display[p] == "none" <==> EnabledFor(siteFilters, host))
  {
  }

  /** One `chrome.storage.onChanged` event: `keywordsChange` is
      `Some(newValue)` when the keywords key changed, `siteFiltersChanged`
      says whether the switches changed and `storedSiteFilters` is what
      the later re-read returns. The keywords branch runs synchronously; the
      switch branch runs when the read completes, so after it. Events from
      other storage areas are ignored. */
  function OnStorageChanged(s: EngineState, area: string,
                            keywordsChange: Option<Option<seq<string>>>,
                            siteFiltersChanged: bool, storedSiteFilters: Option<SiteFilters>,
                            host: string, d: Document, vp: Viewport): (r: EngineState)
    ensures area != "sync" ==> r == s
    ensures area == "sync" && keywordsChange.None? && !siteFiltersChanged ==> r == s
    ensures area == "sync" && keywordsChange.Some? ==> r.keywords == keywordsChange.value.GetOr([])
    ensures area == "sync" && keywordsChange.None? ==> r.keywords == s.keywords
    ensures area == "sync" && siteFiltersChanged && storedSiteFilters.Some? ==>
              r.filterEnabled == EnabledFor(storedSiteFilters.value, host) && Consistent(r)
    ensures !siteFiltersChanged || storedSiteFilters.None? ==> r.filterEnabled == s.filterEnabled
    ensures s.marked <= r.marked
  {
    if area != "sync" then s
    else
      var s1 := match keywordsChange
                case Some(newValue) => OnKeywordsChanged(s, newValue, d, vp)
                case None => s;
      if siteFiltersChanged then OnSiteFiltersChanged(s1, storedSiteFilters, host, d, vp) else s1
  }

  /** A consistent state stays consistent through any storage event. */
  lemma StorageEventsKeepConsistent(s: EngineState, area: string,
                                    keywordsChange: Option<Option<seq<string>>>,
                                    siteFiltersChanged: bool, storedSiteFilters: Option<SiteFilters>,
                                    host: string, d: Document, vp: Viewport)
    requires Consistent(s)
    ensures Consistent(OnStorageChanged(s, area, keywordsChange, siteFiltersChanged,
                                        storedSiteFilters, host, d, vp))
  {
    if area == "sync" {
      match keywordsChange
      case Some(newValue) => ScanPreservesConsistent(s.(keywords := newValue.GetOr([])), d, vp);
      case None =>
    }
  }
}

=== FILE: engine_as_written.dfy ===
/** `checkContent` as written, on the live page: every scan after
    the first reads class attributes that already carry the marker class,
    and a keyword text node sitting directly in the body makes
    `getRepeatingAncestor` throw, which abandons the whole scan. */
module EngineAsWritten {
  import opened Wrappers
  import opened Seqs
  import opened Keywords
  import opened Settings
  import opened ClassList
  import opened Dom
  import opened Resolver
  import opened Engine

  /** What one text node does in the as-written loop: the elements it adds
      to `matched`, or None when `getRepeatingAncestor` throws. */
  function StepAsWritten(live: Document, vp: Viewport, keywords: seq<string>, t: Path): Option<set<Path>> {
    if !Counted(live, vp, keywords, t) then Some({})
    else
      var e := Parent(t);
      match RepeatingAncestorAsWritten(live, e)
      case TypeError => None
      case Returned(Some(a)) => if SmallAt(live, vp, a) then Some({e, a}) else Some({e})
      case Returned(None) => Some({e})
  }

  /** A loop over `ts` that unions what each step yields and stops at the
      first step that throws (None). */
  function UnionUntilThrow<T, U>(ts: seq<T>, step: T -> Option<set<U>>): Option<set<U>> {
    if ts == [] then Some({})
    else
      match UnionUntilThrow(ts[..|ts| - 1], step)
      case None => None
      case Some(acc) =>
        match step(ts[|ts| - 1])
        case None => None
        case Some(c) => Some(acc + c)
  }

  /** The loop throws exactly when one of its steps does. */
  lemma {:induction false} UnionUntilThrowStops<T, U>(ts: seq<T>, step: T -> Option<set<U>>)
    ensures UnionUntilThrow(ts, step).None? <==> exists i :: 0 <= i < |ts| && step(ts[i]).None?
  {
    if ts != [] {
      var init := ts[..|ts| - 1];
      UnionUntilThrowStops(init, step);
      if UnionUntilThrow(init, step).None? {
        var i :| 0 <= i < |init| && step(init[i]).None?;
        assert ts[i] == init[i];
      } else {
        forall i | 0 <= i < |init| ensures step(ts[i]).Some? {
          assert ts[i] == init[i];
        }
      }
    }
  }

  /** The loop over the text nodes `ts`: the first throw ends it. */
  function CollectOverAsWritten(live: Document, vp: Viewport, keywords: seq<string>, ts: seq<Path>): Option<set<Path>> {
    UnionUntilThrow(ts, t => StepAsWritten(live, vp, keywords, t))
  }

  /** The text node at `t` makes `getRepeatingAncestor` throw: it holds a
      keyword, sits directly in the body and the body passes the gate. */
  predicate ThrowsAt(live: Document, vp: Viewport, keywords: seq<string>, t: Path) {
    Counted(live, vp, keywords, t) && |t| == 1
  }

  /** A text node throws exactly when `ThrowsAt` holds; otherwise it
      contributes what the corrected scan's step contributes. */
  lemma StepAsWrittenThrowsOnBody(live: Document, vp: Viewport, keywords: seq<string>, t: Path)
    ensures StepAsWritten(live, vp, keywords, t).None? <==> ThrowsAt(live, vp, keywords, t)
    ensures StepAsWritten(live, vp, keywords, t).Some? ==>
              StepAsWritten(live, vp, keywords, t).value == Contribution(live, vp, keywords, t)
  {
    if Counted(live, vp, keywords, t) {
      AsWrittenThrowsOnlyOnBody(live, Parent(t));
    }
  }

  /** The as-written loop throws exactly when one of its text nodes holds a
      keyword directly in a body that passes the gate. */
  lemma CollectOverAsWrittenThrows(live: Document, vp: Viewport, keywords: seq<string>, ts: seq<Path>)
    ensures CollectOverAsWritten(live, vp, keywords, ts).None? <==>
              exists i :: 0 <= i < |ts| && ThrowsAt(live, vp, keywords, ts[i])
  {
    UnionUntilThrowStops(ts, t => StepAsWritten(live, vp, keywords, t));
    forall i | 0 <= i < |ts|
      ensures StepAsWritten(live, vp, keywords, ts[i]).None? <==> ThrowsAt(live, vp, keywords, ts[i])
    {
      StepAsWrittenThrowsOnBody(live, vp, keywords, ts[i]);
    }
  }

  /** When the as-written loop does not throw, it collects what the
      corrected loop collects. */
  lemma {:induction false} CollectOverAsWrittenValue(live: Document, vp: Viewport, keywords: seq<string>, ts: seq<Path>)
    ensures CollectOverAsWritten(live, vp, keywords, ts).Some? ==>
              CollectOverAsWritten(live, vp, keywords, ts).value == CollectOver(live, vp, keywords, ts)
  {
    if ts != [] {
      var init, last := ts[..|ts| - 1], ts[|ts| - 1];
      CollectOverAsWrittenValue(live, vp, keywords, init);
      StepAsWrittenThrowsOnBody(live, vp, keywords, last);
      CollectOverSnoc(live, vp, keywords, ts);
    }
  }

  /** `checkContent()` as written: None when it throws (nothing is marked
      and no display changes), else the state after marking. */
  function ScanAsWritten(s: EngineState, d: Document, vp: Viewport): (r: Option<EngineState>)
    ensures r.Some? ==> r.value.keywords == s.keywords && r.value.filterEnabled == s.filterEnabled
    ensures r.Some? ==> s.marked <= r.value.marked
    ensures r.Some? && Consistent(s) ==> Consistent(r.value)
  {
    var live := ApplyMarkers(d, s.marked);
    match CollectOverAsWritten(live, vp, s.keywords, Texts(live))
    case None => None
    case Some(ms) => Some(MarkAll(s, ms))
  }

  /** A text node directly in the body holding a keyword, with a body that
      passes the size gate. */
  ghost predicate BodyLevelMatch(d: Document, vp: Viewport, keywords: seq<string>) {
    exists t :: Counted(d, vp, keywords, t) && |t| == 1
  }

  /** The as-written scan throws exactly when there is a body-level match;
      otherwise it marks what the corrected scan would mark on the live
      page. */
  lemma ScanAsWrittenThrowsIff(s: EngineState, d: Document, vp: Viewport)
    ensures ScanAsWritten(s, d, vp).None? <==> BodyLevelMatch(d, vp, s.keywords)
    ensures ScanAsWritten(s, d, vp).Some? ==>
              ScanAsWritten(s, d, vp).value == Scan(s, ApplyMarkers(d, s.marked), vp)
  {
    var live := ApplyMarkers(d, s.marked);
    var ts := Texts(live);
    CollectOverAsWrittenThrows(live, vp, s.keywords, ts);
    CollectOverAsWrittenValue(live, vp, s.keywords, ts);
    TextsExact(live);
    if BodyLevelMatch(d, vp, s.keywords) {
      var t :| Counted(d, vp, s.keywords, t) && |t| == 1;
      MarkingKeepsShape(d, s.marked, vp, t);
      MarkingKeepsShape(d, s.marked, vp, Parent(t));
      assert Counted(live, vp, s.keywords, t);
      assert t in ts;
    }
    if ScanAsWritten(s, d, vp).None? {
      var i :| 0 <= i < |ts| && ThrowsAt(live, vp, s.keywords, ts[i]);
      var t := ts[i];
      MarkingKeepsShape(d, s.marked, vp, t);
      MarkingKeepsShape(d, s.marked, vp, Parent(t));
      assert Counted(d, vp, s.keywords, t);
    }
  }

  /** On a page without a body-level match the first scan agrees with the
      corrected one. */
  lemma FirstScanAgrees(s: EngineState, d: Document, vp: Viewport)
    requires s.marked == {}
    requires !BodyLevelMatch(d, vp, s.keywords)
    ensures ScanAsWritten(s, d, vp) == Some(Scan(s, d, vp))
  {
    ScanAsWrittenThrowsIff(s, d, vp);
    ApplyNoMarkers(d);
  }

  /** With a body-level match the as-written scan marks nothing, while the
      corrected scan marks the body. */
  lemma BodyLevelMatchAbortsScan(s: EngineState, d: Document, vp: Viewport, t: Path)
    requires Counted(d, vp, s.keywords, t) && |t| == 1
    ensures ScanAsWritten(s, d, vp).None?
    ensures [] in Scan(s, d, vp).marked
  {
    ScanAsWrittenThrowsIff(s, d, vp);
    MatchedParentsAreMarked(d, vp, s.keywords, t);
  }

  /** The stored-settings callback as written: the first `checkContent()`
      runs before the mutation observer and the storage listener are
      registered, so when it throws the callback ends there and the page is
      never scanned again (None). */
  function LoadAsWritten(storedKeywords: Option<seq<string>>, storedSiteFilters: Option<SiteFilters>,
                         host: string, d: Document, vp: Viewport): (r: Option<EngineState>)
    ensures r.Some? ==> Consistent(r.value)
    ensures r.Some? ==> r.value.keywords == storedKeywords.GetOr([])
    ensures r.Some? ==> r.value.filterEnabled == EnabledFor(storedSiteFilters.GetOr(map[]), host)
  {
    var keywords := storedKeywords.GetOr([]);
    var enabled := EnabledFor(storedSiteFilters.GetOr(map[]), host);
    ScanAsWritten(EngineState(keywords, enabled, {}, map[]), d, vp)
  }

  /** Start-up as written fails exactly on a body-level match and agrees
      with the corrected `Engine.Load` otherwise. */
  lemma LoadAsWrittenAgrees(storedKeywords: Option<seq<string>>, storedSiteFilters: Option<SiteFilters>,
                            host: string, d: Document, vp: Viewport)
    ensures LoadAsWritten(storedKeywords, storedSiteFilters, host, d, vp).None? <==>
              BodyLevelMatch(d, vp, storedKeywords.GetOr([]))
    ensures LoadAsWritten(storedKeywords, storedSiteFilters, host, d, vp).Some? ==>
              LoadAsWritten(storedKeywords, storedSiteFilters, host, d, vp) ==
              Some(Load(storedKeywords, storedSiteFilters, host, d, vp))
  {
    var keywords := storedKeywords.GetOr([]);
    var enabled := EnabledFor(storedSiteFilters.GetOr(map[]), host);
    var s0 := EngineState(keywords, enabled, {}, map[]);
    ScanAsWrittenThrowsIff(s0, d, vp);
    if !BodyLevelMatch(d, vp, keywords) {
      FirstScanAgrees(s0, d, vp);
    }
  }

  // ---------------------------------------------------------------------
  // The storage-change handler as written.

  /** `checkContent()` called at the end of an event handler: when it
      throws, the handler's earlier assignments stand and nothing more is
      marked. */
  function ScanOrKeep(s: EngineState, d: Document, vp: Viewport): (r: EngineState)
    ensures r.keywords == s.keywords && r.filterEnabled == s.filterEnabled
    ensures s.marked <= r.marked
    ensures Consistent(s) ==> Consistent(r)
  {
    match ScanAsWritten(s, d, vp)
    case None => s
    case Some(r) => r
  }

  /** A thrown scan leaves the state as the handler left it; otherwise the
      handler's scan is the corrected scan of the live page. */
  lemma ScanOrKeepAgrees(s: EngineState, d: Document, vp: Viewport)
    ensures BodyLevelMatch(d, vp, s.keywords) ==> ScanOrKeep(s, d, vp) == s
    ensures !BodyLevelMatch(d, vp, s.keywords) ==>
              ScanOrKeep(s, d, vp) == Scan(s, ApplyMarkers(d, s.marked), vp)
  {
    ScanAsWrittenThrowsIff(s, d, vp);
  }

  /** The `keywords` branch as written: the new list is assigned before
      `checkContent()` runs, so it is kept even when the scan throws. */
  function OnKeywordsChangedAsWritten(s: EngineState, newValue: Option<seq<string>>,
                                      d: Document, vp: Viewport): (r: EngineState)
    ensures r.keywords == newValue.GetOr([]) && r.filterEnabled == s.filterEnabled
    ensures s.marked <= r.marked
    ensures Consistent(s) ==> Consistent(r)
  {
    ScanOrKeep(s.(keywords := newValue.GetOr([])), d, vp)
  }

  /** The `siteFilters` callback as written: a missing key throws before
      anything changes; otherwise the switch and the restyling happen
      before `checkContent()`, so they stand even when the scan throws. */
  function OnSiteFiltersChangedAsWritten(s: EngineState, stored: Option<SiteFilters>, host: string,
                                         d: Document, vp: Viewport): (r: EngineState)
    ensures stored.None? ==> r == s
    ensures stored.Some? ==>
              && r.filterEnabled == EnabledFor(stored.value, host)
              && r.keywords == s.keywords
              && s.marked <= r.marked
              && Consistent(r)
  {
    match stored
    case None => s
    case Some(siteFilters) => ScanOrKeep(RefreshVisibility(s, EnabledFor(siteFilters, host)), d, vp)
  }

  /** One `chrome.storage.onChanged` event as written; the arguments are
      those of `Engine.OnStorageChanged`. */
  function OnStorageChangedAsWritten(s: EngineState, area: string,
                                     keywordsChange: Option<Option<seq<string>>>,
                                     siteFiltersChanged: bool, storedSiteFilters: Option<SiteFilters>,
                                     host: string, d: Document, vp: Viewport): (r: EngineState)
    ensures area != "sync" ==> r == s
    ensures Consistent(s) ==> Consistent(r)
    ensures s.marked <= r.marked
  {
    if area != "sync" then s
    else
      var s1 := match keywordsChange
                case Some(newValue) => OnKeywordsChangedAsWritten(s, newValue, d, vp)
                case None => s;
      if siteFiltersChanged then OnSiteFiltersChangedAsWritten(s1, storedSiteFilters, host, d, vp) else s1
  }

  /** The as-written keywords branch is the corrected one run on the live
      page, except that a body-level match only stores the new list. */
  lemma KeywordsBranchAgrees(s: EngineState, newValue: Option<seq<string>>, d: Document, vp: Viewport)
    ensures var k := newValue.GetOr([]);
            OnKeywordsChangedAsWritten(s, newValue, d, vp) ==
              if BodyLevelMatch(d, vp, k) then s.(keywords := k)
              else OnKeywordsChanged(s, newValue, ApplyMarkers(d, s.marked), vp)
  {
    ScanOrKeepAgrees(s.(keywords := newValue.GetOr([])), d, vp);
  }

  /** The as-written switch branch is the corrected one run on the live
      page, except that a body-level match only restyles. */
  lemma SwitchBranchAgrees(s: EngineState, siteFilters: SiteFilters, host: string, d: Document, vp: Viewport)
    ensures OnSiteFiltersChangedAsWritten(s, Some(siteFilters), host, d, vp) ==
              if BodyLevelMatch(d, vp, s.keywords) then RefreshVisibility(s, EnabledFor(siteFilters, host))
              else OnSiteFiltersChanged(s, Some(siteFilters), host, ApplyMarkers(d, s.marked), vp)
  {
    ScanOrKeepAgrees(RefreshVisibility(s, EnabledFor(siteFilters, host)), d, vp);
  }

  /** Whatever the page holds, the as-written handler ends with the same
      keyword list and the same switch as the corrected one: the throw
      loses marks, never settings. */
  lemma StorageEventKeepsSettings(s: EngineState, area: string,
                                  keywordsChange: Option<Option<seq<string>>>,
                                  siteFiltersChanged: bool, storedSiteFilters: Option<SiteFilters>,
                                  host: string, d: Document, vp: Viewport)
    ensures var w := OnStorageChangedAsWritten(s, area, keywordsChange, siteFiltersChanged,
                                               storedSiteFilters, host, d, vp);
            var c := OnStorageChanged(s, area, keywordsChange, siteFiltersChanged,
                                      storedSiteFilters, host, d, vp);
            w.keywords == c.keywords && w.filterEnabled == c.filterEnabled
  {
  }
}

=== FILE: extension.dfy ===
/** The popup and the content script talk only through
    `chrome.storage.sync`: what the popup writes is what the page's
    storage-change handler reads. */
module Extension {
  import opened Wrappers
  import opened Settings
  import opened Dom
  import opened Engine
  import opened Strings
  import opened Popup

  /** On opening, the popup's switch shows the setting the content script
      started with for the same host and storage. */
  lemma PopupShowsPageSwitch(vm: ViewModel, storage: Storage, host: string, d: Document, vp: Viewport)
    ensures Init(vm, storage, host).filterEnabled ==
            Load(storage.keywords, storage.siteFilters, host, d, vp).filterEnabled
  {
  }

  /** Flipping the switch in the popup reaches the page: when the change
      event arrives, the page's switch equals the popup's and every
      redacted element is styled for it. */
  lemma ToggleReachesPage(p: PopupState, host: string, s: EngineState, d: Document, vp: Viewport)
    ensures var r := ToggleFilter(p, host);
            var page := OnStorageChanged(s, "sync", None, true, r.storage.siteFilters, host, d, vp);
            page.filterEnabled == r.vm.filterEnabled && Consistent(page)
  {
  }

  /** Adding keywords in the popup reaches the page: the page scans with
      exactly the list the popup shows. */
  lemma AddReachesPage(p: PopupState, s: EngineState, d: Document, vp: Viewport, host: string)
    requires Trim(p.vm.newKeyword) != ""
    ensures var r := AddKeyword(p);
            var page := OnStorageChanged(s, "sync", Some(r.storage.keywords), false, None, host, d, vp);
            page.keywords == r.vm.keywords
  {
  }

  /** Removing a keyword in the popup reaches the page's list, but nothing
      the page already hid is shown again. */
  lemma RemoveReachesPage(p: PopupState, keyword: string, s: EngineState, d: Document, vp: Viewport, host: string)
    requires Consistent(s)
    ensures var r := RemoveKeyword(p, keyword);
            var page := OnStorageChanged(s, "sync", Some(r.storage.keywords), false, None, host, d, vp);
            && page.keywords == r.vm.keywords
            && keyword !in page.keywords
            && s.marked <= page.marked
            && forall q :: q in s.display ==> q in page.display && page.display[q] == s.display[q]
  {
  }
}

=== FILE: keywords.dfy ===
/** The keyword matcher of the content script: case-insensitive substring
    tests of a text against the current keyword list. */
module Keywords {
  import opened Seqs
  import opened Strings

  /** Keyword `k` matches `text` when the lower-cased keyword occurs in the
      lower-cased text. */
  predicate Matches(k: string, text: string) {
    Includes(Lower(text), Lower(k))
  }

  /** Some keyword of the list, lower-cased, occurs in the lower-cased text. */
  ghost predicate SomeKeywordOccurs(keywords: seq<string>, text: string) {
    exists k, i :: k in keywords && OccursAt(Lower(text), Lower(k), i)
  }

  /** `hasKeyword`: does some keyword of the list match `text`? */
  function HasKeyword(keywords: seq<string>, text: string): (r: bool)
    ensures r <==> SomeKeywordOccurs(keywords, text)
  {
    if keywords == [] then false
    else
      SomeKeywordOccursCons(keywords, text);
      Matches(keywords[0], text) || HasKeyword(keywords[1..], text)
  }

  lemma SomeKeywordOccursCons(keywords: seq<string>, text: string)
    requires keywords != []
    ensures SomeKeywordOccurs(keywords, text) <==>
            Matches(keywords[0], text) || SomeKeywordOccurs(keywords[1..], text)
  {
    var k0, rest := keywords[0], keywords[1..];
    assert keywords == [k0] + rest;
    if Matches(k0, text) {
      var i :| OccursAt(Lower(text), Lower(k0), i);
    }
    if SomeKeywordOccurs(keywords, text) && !Matches(k0, text) {
      var k, i :| k in keywords && OccursAt(Lower(text), Lower(k), i);
      assert k != k0;
    }
    if SomeKeywordOccurs(rest, text) {
      var k, i :| k in rest && OccursAt(Lower(text), Lower(k), i);
      assert k in keywords;
    }
  }

  /** `containsKeywords`: the keywords that match `text`, in list order and
      with their repetitions. */
  function ContainsKeywords(keywords: seq<string>, text: string): (r: seq<string>)
    ensures forall k :: k in r <==> k in keywords && Matches(k, text)
    ensures forall k :: multiset(r)[k] == if Matches(k, text) then multiset(keywords)[k] else 0
    ensures IsSubseq(r, keywords)
  {
    Filter(keywords, k => Matches(k, text))
  }

  /** The two matcher entry points agree: a text has a keyword exactly when
      the list of its matching keywords is non-empty. */
  lemma HasKeywordIffContains(keywords: seq<string>, text: string)
    ensures HasKeyword(keywords, text) <==> ContainsKeywords(keywords, text) != []
  {
    var r := ContainsKeywords(keywords, text);
    if r != [] {
      assert r[0] in r;
    }
    if HasKeyword(keywords, text) {
      var k, i :| k in keywords && OccursAt(Lower(text), Lower(k), i);
      assert Matches(k, text);
      assert k in r;
    }
  }

  /** With no keywords nothing is matched. */
  lemma NoKeywordsNoMatch(text: string)
    ensures !HasKeyword([], text)
    ensures ContainsKeywords([], text) == []
  {
  }

  /** An empty keyword matches every text, since every string includes "". */
  lemma EmptyKeywordMatchesEverything(keywords: seq<string>, text: string)
    requires "" in keywords
    ensures HasKeyword(keywords, text)
  {
    IncludesEmpty(Lower(text));
    assert OccursAt(Lower(text), Lower(""), 0);
  }

  /** The empty text is matched by the empty keyword and by nothing else. */
  lemma EmptyTextMatchesOnlyEmptyKeyword(keywords: seq<string>)
    ensures HasKeyword(keywords, "") <==> "" in keywords
  {
    if "" in keywords {
      EmptyKeywordMatchesEverything(keywords, "");
    }
  }

  /** Matching ignores the (ASCII) case of the text. */
  lemma MatchIgnoresCase(keywords: seq<string>, text: string)
    ensures HasKeyword(keywords, Lower(text)) == HasKeyword(keywords, text)
  {
    LowerIdempotent(text);
  }
}

=== FILE: popup.dfy ===
/** The popup: the keyword list editor and the per-site on/off switch. The
    view model mirrors what the popup shows; `chrome.storage.sync` is the
    `Storage` record, where a missing key is None. */
module Popup {
  import opened Wrappers
  import opened Seqs
  import opened Strings
  import opened Settings

  /** The Knockout observables of the popup. */
  datatype ViewModel = ViewModel(
    newKeyword: string,
    keywords: seq<string>,
    filterEnabled: bool,
    currentDomain: string)

  /** The two keys the extension keeps in `chrome.storage.sync`. */
  datatype Storage = Storage(keywords: Option<seq<string>>, siteFilters: Option<SiteFilters>)

  datatype PopupState = PopupState(vm: ViewModel, storage: Storage)

  /** `init`: show the active tab's host, the stored keywords (default
      empty) and the stored switch for that host (default on). */
  function Init(vm: ViewModel, storage: Storage, domain: string): (r: ViewModel)
    ensures r.filterEnabled == EnabledFor(storage.siteFilters.GetOr(map[]), domain)
  {
    var siteFilters := storage.siteFilters.GetOr(map[]);
    vm.(currentDomain := domain,
        keywords := storage.keywords.GetOr([]),
        filterEnabled := if domain in siteFilters then siteFilters[domain] else true)
  }

  // ---------------------------------------------------------------------
  // Adding keywords.

  /** A keyword as the popup stores it: non-empty, already trimmed and
      without a comma. */
  predicate IsKeyword(k: string) {
    k != "" && Trim(k) == k && ',' !in k
  }

  function TrimAll(parts: seq<string>): (r: seq<string>)
    ensures |r| == |parts|
    ensures forall i :: 0 <= i < |parts| ==> r[i] == Trim(parts[i])
  {
    seq(|parts|, i requires 0 <= i < |parts| => Trim(parts[i]))
  }

  /** `input.split(",").map(k => k.trim()).filter(Boolean)` for the already
      trimmed input. */
  function ParseKeywords(input: string): (r: seq<string>)
    ensures forall k :: k in r ==> IsKeyword(k)
  {
    var pieces := Split(input, ',');
    TrimmedPiecesAreKeywords(pieces);
    Filter(TrimAll(pieces), NonEmpty)
  }

  /** `filter(Boolean)` on strings. */
  predicate NonEmpty(k: string) {
    k != ""
  }

  lemma TrimmedPiecesAreKeywords(pieces: seq<string>)
    requires forall i :: 0 <= i < |pieces| ==> ',' !in pieces[i]
    ensures forall k :: k in Filter(TrimAll(pieces), NonEmpty) ==> IsKeyword(k)
  {
    var trimmed := TrimAll(pieces);
    forall k | k in Filter(trimmed, NonEmpty) ensures IsKeyword(k) {
      var i :| 0 <= i < |trimmed| && trimmed[i] == k;
      TrimIdempotent(pieces[i]);
      TrimKeepsOut(pieces[i], ',');
    }
  }

  /** The pieces of a comma-joined list of keywords are the keywords:
      parsing inverts joining. */
  lemma ParseJoined(keywords: seq<string>)
    requires |keywords| >= 1
    requires forall i :: 0 <= i < |keywords| ==> IsKeyword(keywords[i])
    ensures ParseKeywords(Join(keywords, ',')) == keywords
  {
    SplitJoin(keywords, ',');
    var trimmed := TrimAll(keywords);
    assert trimmed == keywords;
    FilterKeepsAll(keywords, NonEmpty);
  }

  /** A single keyword parses to itself. */
  lemma ParseOne(k: string)
    requires IsKeyword(k)
    ensures ParseKeywords(k) == [k]
  {
    ParseJoined([k]);
  }

  /** `addKeyword`: ignore blank input; otherwise merge the parsed keywords
      into the stored list, dropping repeats and keeping first positions,
      store the result, show it and clear the input box. The list merged
      into is the stored one, not the one on screen. */
  function AddKeyword(p: PopupState): (r: PopupState)
    ensures Trim(p.vm.newKeyword) == "" ==> r == p
    ensures Trim(p.vm.newKeyword) != "" ==>
              && r.vm.newKeyword == ""
              && r.storage.keywords == Some(r.vm.keywords)
              && NoDup(r.vm.keywords)
              && (forall k :: k in r.vm.keywords <==>
                                k in p.storage.keywords.GetOr([]) ||
                                k in ParseKeywords(Trim(p.vm.newKeyword)))
    ensures r.vm.filterEnabled == p.vm.filterEnabled && r.vm.currentDomain == p.vm.currentDomain
    ensures r.storage.siteFilters == p.storage.siteFilters
  {
    var input := Trim(p.vm.newKeyword);
    if input == "" then p
    else
      var merged := Dedup(p.storage.keywords.GetOr([]) + ParseKeywords(input));
      PopupState(p.vm.(newKeyword := "", keywords := merged),
                 p.storage.(keywords := Some(merged)))
  }

  /** Adding never reorders: a duplicate-free stored list stays a prefix of
      the merged list. */
  lemma AddKeepsOrder(p: PopupState)
    requires NoDup(p.storage.keywords.GetOr([]))
    ensures var stored := p.storage.keywords.GetOr([]);
            var r := AddKeyword(p);
            Trim(p.vm.newKeyword) != "" ==>
              |stored| <= |r.vm.keywords| && r.vm.keywords[..|stored|] == stored
  {
    var stored := p.storage.keywords.GetOr([]);
    var input := Trim(p.vm.newKeyword);
    if input != "" {
      FirstOccurrencesPrefix(stored, ParseKeywords(input));
      FirstOccurrencesOfNoDup(stored);
    }
  }

  /** Entering the same text again changes nothing further. */
  lemma AddTwiceIsAddOnce(p: PopupState)
    ensures var r1 := AddKeyword(p);
            var r2 := AddKeyword(r1.(vm := r1.vm.(newKeyword := p.vm.newKeyword)));
            r2.vm.keywords == r1.vm.keywords && r2.storage == r1.storage
  {
    var input := Trim(p.vm.newKeyword);
    if input != "" {
      var r1 := AddKeyword(p);
      var merged := r1.vm.keywords;
      var parsed := ParseKeywords(input);
      FirstOccurrencesAbsorbs(merged, parsed);
      FirstOccurrencesOfNoDup(merged);
    }
  }

  /** A new keyword typed on its own is appended at the end. */
  lemma AddOneAppends(p: PopupState, k: string)
    requires IsKeyword(k) && p.vm.newKeyword == k
    requires NoDup(p.storage.keywords.GetOr([])) && k !in p.storage.keywords.GetOr([])
    ensures AddKeyword(p).vm.keywords == p.storage.keywords.GetOr([]) + [k]
    ensures AddKeyword(p).storage.keywords == Some(p.storage.keywords.GetOr([]) + [k])
  {
    var stored := p.storage.keywords.GetOr([]);
    ParseOne(k);
    FirstOccurrencesSnoc(stored, k);
    FirstOccurrencesOfNoDup(stored);
  }

  // ---------------------------------------------------------------------
  // Removing keywords.

  /** The filter callback of `removeKeyword`: `k => k !== keyword`. */
  function Other(keyword: string): string -> bool {
    k => k != keyword
  }

  /** `removeKeyword`: drop every copy of `keyword` from the stored list,
      store the result and show it. */
  function RemoveKeyword(p: PopupState, keyword: string): (r: PopupState)
    ensures keyword !in r.vm.keywords
    ensures forall k :: k != keyword ==> (k in r.vm.keywords <==> k in p.storage.keywords.GetOr([]))
    ensures forall k :: k != keyword ==>
              multiset(r.vm.keywords)[k] == multiset(p.storage.keywords.GetOr([]))[k]
    ensures IsSubseq(r.vm.keywords, p.storage.keywords.GetOr([]))
    ensures r.storage.keywords == Some(r.vm.keywords)
    ensures r.vm.newKeyword == p.vm.newKeyword && r.vm.filterEnabled == p.vm.filterEnabled
    ensures r.storage.siteFilters == p.storage.siteFilters
  {
    var updated := Filter(p.storage.keywords.GetOr([]), Other(keyword));
    PopupState(p.vm.(keywords := updated), p.storage.(keywords := Some(updated)))
  }

  /** Removing a keyword that was just added restores the stored list. */
  lemma RemoveUndoesAdd(p: PopupState, k: string)
    requires IsKeyword(k) && p.vm.newKeyword == k
    requires NoDup(p.storage.keywords.GetOr([])) && k !in p.storage.keywords.GetOr([])
    ensures RemoveKeyword(AddKeyword(p), k).vm.keywords == p.storage.keywords.GetOr([])
  {
    AddOneAppends(p, k);
    RemoveAppended(AddKeyword(p), p.storage.keywords.GetOr([]), k);
  }

  lemma RemoveAppended(q: PopupState, stored: seq<string>, k: string)
    requires q.storage.keywords == Some(stored + [k]) && k !in stored
    ensures RemoveKeyword(q, k).vm.keywords == stored
  {
    FilterSnoc(stored, k, Other(k));
    FilterKeepsAll(stored, Other(k));
  }

  /** Removing twice is removing once. */
  lemma RemoveIdempotent(p: PopupState, k: string)
    ensures RemoveKeyword(RemoveKeyword(p, k), k) == RemoveKeyword(p, k)
  {
    var r := RemoveKeyword(p, k);
    FilterKeepsAll(r.vm.keywords, Other(k));
  }

  // ---------------------------------------------------------------------
  // The per-site switch.

  /** `toggleFilter` as written: the stored map is read without a default,
      so when `siteFilters` has never been stored, assigning into
      `undefined` throws and nothing changes (None). */
  function ToggleFilterAsWritten(p: PopupState, domain: string): (r: Option<PopupState>)
    ensures r.None? <==> p.storage.siteFilters.None?
    ensures r.Some? ==> r.value.storage.siteFilters.Some? && p.storage.siteFilters.Some?
    ensures r.Some? ==>
              && r.value.vm.filterEnabled == !p.vm.filterEnabled
              && domain in r.value.storage.siteFilters.value
              && r.value.storage.siteFilters.value[domain] == r.value.vm.filterEnabled
              && r.value.storage.keywords == p.storage.keywords
              && (forall h :: h != domain ==>
                    (h in r.value.storage.siteFilters.value <==> h in p.storage.siteFilters.value) &&
                    (h in r.value.storage.siteFilters.value ==>
                       r.value.storage.siteFilters.value[h] == p.storage.siteFilters.value[h]))
  {
    match p.storage.siteFilters
    case None => None
    case Some(siteFilters) =>
      var flag := !p.vm.filterEnabled;
      Some(PopupState(p.vm.(filterEnabled := flag), p.storage.(siteFilters := Some(siteFilters[domain := flag]))))
  }

  /** `toggleFilter` reading the stored map with the `{}` default that
      `init` and the content script use: store the flipped switch for this
      host and show it. */
  function ToggleFilter(p: PopupState, domain: string): (r: PopupState)
    ensures r.vm.filterEnabled == !p.vm.filterEnabled
    ensures r.storage.siteFilters.Some?
    ensures domain in r.storage.siteFilters.value
    ensures r.storage.siteFilters.value[domain] == r.vm.filterEnabled
    ensures EnabledFor(r.storage.siteFilters.value, domain) == r.vm.filterEnabled
    ensures forall h :: h != domain ==>
              (h in r.storage.siteFilters.value <==> h in p.storage.siteFilters.GetOr(map[])) &&
              (h in r.storage.siteFilters.value ==> r.storage.siteFilters.value[h] == p.storage.siteFilters.GetOr(map[])[h])
    ensures r.storage.keywords == p.storage.keywords && r.vm.keywords == p.vm.keywords
  {
    var flag := !p.vm.filterEnabled;
    var siteFilters := p.storage.siteFilters.GetOr(map[]);
    PopupState(p.vm.(filterEnabled := flag), p.storage.(siteFilters := Some(siteFilters[domain := flag])))
  }

  /** Without a stored map the as-written switch does nothing at all, and
      neither editing keywords nor switching ever stores one: on a profile
      where it is missing the switch never works. */
  lemma ToggleAsWrittenNeedsStoredMap(p: PopupState, domain: string, keyword: string)
    requires p.storage.siteFilters.None?
    ensures ToggleFilterAsWritten(p, domain).None?
    ensures AddKeyword(p).storage.siteFilters.None?
    ensures RemoveKeyword(p, keyword).storage.siteFilters.None?
  {
  }

  /** With a stored map the as-written and the corrected switch agree. */
  lemma ToggleAgreesWhenStored(p: PopupState, domain: string)
    requires p.storage.siteFilters.Some?
    ensures ToggleFilterAsWritten(p, domain) == Some(ToggleFilter(p, domain))
  {
  }

  /** With the corrected switch, switching twice restores what the popup
      shows and stores the original setting for the host. */
  lemma ToggleTwice(p: PopupState, domain: string)
    ensures var r := ToggleFilter(ToggleFilter(p, domain), domain);
            && r.vm == p.vm
            && EnabledFor(r.storage.siteFilters.value, domain) == p.vm.filterEnabled
  {
  }

  /** With the corrected switch, toggling right after the popup opened
      flips the setting the page reads for this host, whatever was stored
      before. */
  lemma ToggleAfterInit(vm: ViewModel, storage: Storage, domain: string)
    ensures var r := ToggleFilter(PopupState(Init(vm, storage, domain), storage), domain);
            EnabledFor(r.storage.siteFilters.value, domain) ==
              !EnabledFor(storage.siteFilters.GetOr(map[]), domain)
  {
  }

  /** As written, toggling right after the popup opened fails and stores
      nothing when no map is stored, and otherwise flips the setting the
      page reads for this host. */
  lemma ToggleAfterInitAsWritten(vm: ViewModel, storage: Storage, domain: string)
    ensures var r := ToggleFilterAsWritten(PopupState(Init(vm, storage, domain), storage), domain);
            && (r.None? <==> storage.siteFilters.None?)
            && (r.Some? ==>
                  EnabledFor(r.value.storage.siteFilters.value, domain) ==
                    !EnabledFor(storage.siteFilters.value, domain))
  {
  }

  /** On a fresh profile, the first switch after `init` turns redaction off
      for the host and stores exactly that. */
  lemma FirstToggleOnFreshProfile(vm: ViewModel, domain: string)
    ensures var p := PopupState(Init(vm, Storage(None, None), domain), Storage(None, None));
            var r := ToggleFilter(p, domain);
            !r.vm.filterEnabled && r.storage.siteFilters == Some(map[domain := false])
  {
  }
}

=== FILE: rescan_example.dfy ===
/** A page on which the as-written rescan marks more than the first scan:
    two repeated sections, the first holding two repeated cards, the first
    card holding a span with the keyword. The first scan marks the span and
    its card; once the card's class carries the marker it no longer matches
    its twin, so the next scan climbs past it and marks the section too. */
module RescanExample {
  import opened Wrappers
  import opened Seqs
  import opened Strings
  import opened ClassList
  import opened Keywords
  import opened Dom
  import opened Resolver
  import opened Engine
  import opened EngineAsWritten

  const Span: Node := Element("SPAN", "t", 1.0, 1.0, [Text("x")])
  const Card: Node := Element("DIV", "c", 1.0, 1.0, [Span])
  const EmptyCard: Node := Element("DIV", "c", 1.0, 1.0, [])
  const Section: Node := Element("DIV", "s", 10.0, 10.0, [Card, EmptyCard])
  const EmptySection: Node := Element("DIV", "s", 10.0, 10.0, [])
  const Page: Document := Document("", 100.0, 100.0, [Section, EmptySection])
  const Screen: Viewport := Viewport(100, 100)
  /** Keyword "x", filtering on for the site, nothing marked yet. */
  const Start: EngineState := EngineState(["x"], true, {}, map[])

  lemma PrependOne(j: nat, p: Path)
    ensures Prepend(j, [p]) == [[j] + p]
  {
  }

  /** An element whose only text lies under its first child, the second
      child (if any) being an empty element. */
  lemma TextsOfFirstChild(n: Node)
    requires n.Element? && 1 <= |n.children| <= 2
    requires |n.children| == 2 ==> n.children[1].Element? && n.children[1].children == []
    ensures TextsOf(n) == Prepend(0, TextsOf(n.children[0]))
  {
    var cs := n.children;
    assert ChildTexts(cs, 0) == Prepend(0, TextsOf(cs[0])) + ChildTexts(cs, 1);
    if |cs| == 2 {
      assert ChildTexts(cs, 1) == Prepend(1, TextsOf(cs[1])) + ChildTexts(cs, 2);
      assert TextsOf(cs[1]) == ChildTexts([], 0) == [];
    }
  }

  lemma PageTexts()
    ensures Texts(Page) == [[0, 0, 0, 0]]
  {
    var empty: Path := [];
    assert TextsOf(Text("x")) == [empty];
    TextsOfFirstChild(Span);
    PrependOne(0, empty);
    assert [0] + empty == [0];
    assert TextsOf(Span) == [[0]];
    TextsOfFirstChild(Card);
    PrependOne(0, [0]);
    assert [0] + [0] == [0, 0];
    assert TextsOf(Card) == [[0, 0]];
    TextsOfFirstChild(Section);
    PrependOne(0, [0, 0]);
    assert [0] + [0, 0] == [0, 0, 0];
    assert TextsOf(Section) == [[0, 0, 0]];
    assert Body(Page).children == [Section, EmptySection];
    TextsOfFirstChild(Body(Page));
    PrependOne(0, [0, 0, 0]);
    assert [0] + [0, 0, 0] == [0, 0, 0, 0];
  }

  /** No text node of the page sits directly in the body. */
  lemma NoBodyLevelMatch()
    ensures !BodyLevelMatch(Page, Screen, ["x"])
  {
    forall t | |t| == 1 ensures !IsTextAt(Page, t) {
      assert t == [t[0]];
      assert t[1..] == [];
      if t[0] < 2 {
        assert At(Page, t) == NodeAt(Page.content[t[0]], []);
      }
    }
  }

  lemma PageNodes()
    ensures At(Page, [0]) == Some(Section) && At(Page, [1]) == Some(EmptySection)
    ensures At(Page, [0, 0]) == Some(Card) && At(Page, [0, 1]) == Some(EmptyCard)
    ensures At(Page, [0, 0, 0]) == Some(Span)
    ensures At(Page, [0, 0, 0, 0]) == Some(Text("x"))
  {
    var b := Body(Page);
    assert b.children == [Section, EmptySection];
    assert At(Page, [0]) == NodeAt(Section, []);
    assert At(Page, [1]) == NodeAt(EmptySection, []);
    assert [0, 0][1..] == [0] && [0, 1][1..] == [1];
    assert At(Page, [0, 0]) == NodeAt(Section, [0]) == NodeAt(Card, []);
    assert At(Page, [0, 1]) == NodeAt(Section, [1]) == NodeAt(EmptyCard, []);
    assert [0, 0, 0][1..] == [0, 0];
    assert At(Page, [0, 0, 0]) == NodeAt(Section, [0, 0]) == NodeAt(Card, [0]) == NodeAt(Span, []);
    assert [0, 0, 0, 0][1..] == [0, 0, 0];
    assert At(Page, [0, 0, 0, 0]) == NodeAt(Section, [0, 0, 0]);
    assert NodeAt(Section, [0, 0, 0]) == NodeAt(Card, [0, 0]) == NodeAt(Span, [0]);
    assert NodeAt(Span, [0]) == NodeAt(Text("x"), []);
  }

  lemma KeywordInText()
    ensures HasKeyword(["x"], "x")
  {
    assert Lower("x") == "x";
    assert OccursAt(Lower("x"), Lower("x"), 0);
  }

  lemma TextCountedOnPage()
    ensures Counted(Page, Screen, ["x"], [0, 0, 0, 0])
  {
    PageNodes();
    KeywordInText();
    assert Parent([0, 0, 0, 0]) == [0, 0, 0];
  }

  lemma TextCountedWhenMarked(marked: set<Path>)
    ensures Counted(ApplyMarkers(Page, marked), Screen, ["x"], [0, 0, 0, 0])
  {
    TextCountedOnPage();
    MarkingKeepsShape(Page, marked, Screen, [0, 0, 0, 0]);
    MarkingKeepsShape(Page, marked, Screen, [0, 0, 0]);
    assert Parent([0, 0, 0, 0]) == [0, 0, 0];
  }

  lemma CountAlikePair(a: Node, b: Node, tag: string, cls: string)
    ensures CountAlike([a, b], tag, cls) ==
            (if a.Element? && a.tag == tag && a.cls == cls then 1 else 0) +
            (if b.Element? && b.tag == tag && b.cls == cls then 1 else 0)
  {
    var like := AlikeTo(tag, cls);
    assert like(a) <==> a.Element? && a.tag == tag && a.cls == cls;
    assert like(b) <==> b.Element? && b.tag == tag && b.cls == cls;
    assert [a, b][..1] == [a];
    assert [a][..0] == [];
    assert CountAlike([a], tag, cls) == if like(a) then 1 else 0;
    assert CountAlike([a, b], tag, cls) == CountAlike([a], tag, cls) + if like(b) then 1 else 0;
  }

  lemma CardRepeatsOnPage()
    ensures Repeats(Page, [0, 0])
  {
    PageNodes();
    assert ChildrenAt(Page, [0]) == [Card, EmptyCard];
    CountAlikePair(Card, EmptyCard, "DIV", "c");
  }

  lemma FirstScanResolvesCard()
    ensures RepeatingAncestor(Page, [0, 0, 0]) == Some([0, 0])
  {
    PageNodes();
    CardRepeatsOnPage();
    assert [0, 0, 0][..2] == [0, 0];
    assert TagAt(Page, [0, 0]) == "DIV";
  }

  lemma FirstCollect()
    ensures Collect(Page, Screen, ["x"]) == {[0, 0, 0], [0, 0]}
  {
    PageTexts();
    TextCountedOnPage();
    FirstScanResolvesCard();
    PageNodes();
    var t: Path := [0, 0, 0, 0];
    assert Parent(t) == [0, 0, 0];
    assert SmallAt(Page, Screen, [0, 0]);
    assert Contribution(Page, Screen, ["x"], t) == {[0, 0, 0], [0, 0]};
    var f := t => Contribution(Page, Screen, ["x"], t);
    assert [t][..0] == [];
    assert UnionOver([t], f) == f(t);
  }

  /** The first scan marks the span and its card and hides both. */
  lemma FirstScanMarksCard()
    ensures ScanAsWritten(Start, Page, Screen).Some?
    ensures ScanAsWritten(Start, Page, Screen).value.marked == {[0, 0, 0], [0, 0]}
    ensures ScanAsWritten(Start, Page, Screen).value.display ==
              map[[0, 0, 0] := "none", [0, 0] := "none"]
  {
    FirstScanMarks();
    assert Consistent(Start);
    HiddenWhenConsistent(ScanAsWritten(Start, Page, Screen).value);
  }

  lemma FirstScanMarks()
    ensures ScanAsWritten(Start, Page, Screen).Some?
    ensures ScanAsWritten(Start, Page, Screen).value.marked == {[0, 0, 0], [0, 0]}
  {
    NoBodyLevelMatch();
    FirstScanAgrees(Start, Page, Screen);
    FirstCollect();
  }

  /** With filtering on, a consistent state that marks the span and the
      card hides exactly those two. */
  lemma HiddenWhenConsistent(s: EngineState)
    requires Consistent(s) && s.filterEnabled && s.marked == {[0, 0, 0], [0, 0]}
    ensures s.display == map[[0, 0, 0] := "none", [0, 0] := "none"]
  {
  }

  /** The elements the first scan marks. */
  const FirstMarks: set<Path> := {[0, 0, 0], [0, 0]}

  lemma CardClassTokens()
    ensures Marker !in SplitTokens("c")
  {
    CardClassIsToken();
    SingleTokenSplit("c");
  }

  lemma CardClassIsToken()
    ensures IsToken("c")
  {
    assert TokenLength("c") == 1;
  }

  /** Children of the element at `p` of a marked page, through their own
      paths. */
  lemma LiveChild(marked: set<Path>, p: Path, j: nat)
    requires IsElementAt(ApplyMarkers(Page, marked), p)
    requires j < |ChildrenAt(ApplyMarkers(Page, marked), p)|
    ensures At(ApplyMarkers(Page, marked), p + [j]) == Some(ChildrenAt(ApplyMarkers(Page, marked), p)[j])
  {
    NodeAtSnoc(Body(ApplyMarkers(Page, marked)), p, j);
  }

  /** What the marked page shows at the first section: the marked card,
      whose class attribute has changed, and its unmarked twin. */
  lemma CardsWhenMarked(marked: set<Path>)
    requires [0, 0] in marked && [0, 1] !in marked
    ensures var live := ApplyMarkers(Page, marked);
            var cs := ChildrenAt(live, [0]);
            && |cs| == 2
            && TagAt(live, [0, 0]) == "DIV" && ClassAt(live, [0, 0]) != "c"
            && cs[0].Element? && cs[0].tag == "DIV" && cs[0].cls == ClassAt(live, [0, 0])
            && cs[1].Element? && cs[1].tag == "DIV" && cs[1].cls == "c"
  {
    PageNodes();
    MarkingKeepsShape(Page, marked, Screen, [0]);
    MarkingKeepsShape(Page, marked, Screen, [0, 1]);
    UnmarkedClassStays(Page, marked, [0, 1]);
    LiveChild(marked, [0], 0);
    LiveChild(marked, [0], 1);
    assert [0] + [0] == [0, 0] && [0] + [1] == [0, 1];
    assert ClassAt(Page, [0, 0]) == "c" && TagAt(Page, [0, 0]) == "DIV";
    CardClassTokens();
    MarkedClassDiffers(Page, marked, [0, 0]);
    MarkingTagsStay(marked, [0, 0]);
  }

  lemma MarkingTagsStay(marked: set<Path>, p: Path)
    ensures TagAt(ApplyMarkers(Page, marked), p) == TagAt(Page, p)
  {
    MarkingKeepsShape(Page, marked, Screen, p);
  }

  /** Once the card is marked and its twin is not, the card has lost its
      twin. */
  lemma CardAloneWhenMarked(marked: set<Path>)
    requires [0, 0] in marked && [0, 1] !in marked
    ensures !Repeats(ApplyMarkers(Page, marked), [0, 0])
  {
    var live := ApplyMarkers(Page, marked);
    var cs := ChildrenAt(live, [0]);
    var mc := ClassAt(live, [0, 0]);
    CardsWhenMarked(marked);
    assert cs == [cs[0], cs[1]];
    CountAlikePair(cs[0], cs[1], "DIV", mc);
    assert Parent([0, 0]) == [0];
  }

  /** While neither section is marked they are still twins. */
  lemma SectionRepeatsWhenMarked(marked: set<Path>)
    requires [0] !in marked && [1] !in marked
    ensures Repeats(ApplyMarkers(Page, marked), [0])
  {
    var live := ApplyMarkers(Page, marked);
    PageNodes();
    MarkingKeepsShape(Page, marked, Screen, []);
    MarkingKeepsShape(Page, marked, Screen, [0]);
    MarkingKeepsShape(Page, marked, Screen, [1]);
    UnmarkedClassStays(Page, marked, [0]);
    UnmarkedClassStays(Page, marked, [1]);
    var cs := ChildrenAt(live, []);
    assert ChildrenAt(Page, []) == [Section, EmptySection];
    assert |cs| == 2;
    LiveChild(marked, [], 0);
    LiveChild(marked, [], 1);
    assert [] + [0] == [0] && [] + [1] == [1];
    assert cs == [cs[0], cs[1]];
    assert cs[0].cls == "s" && cs[1].cls == "s";
    CountAlikePair(cs[0], cs[1], "DIV", "s");
    assert Parent([0]) == [];
  }

  lemma SecondScanResolvesSection(marked: set<Path>)
    requires [0, 0] in marked && [0, 1] !in marked && [0] !in marked && [1] !in marked
    ensures IsElementAt(ApplyMarkers(Page, marked), [0, 0, 0])
    ensures RepeatingAncestor(ApplyMarkers(Page, marked), [0, 0, 0]) == Some([0])
  {
    var live := ApplyMarkers(Page, marked);
    PageNodes();
    MarkingKeepsShape(Page, marked, Screen, [0]);
    MarkingKeepsShape(Page, marked, Screen, [0, 0]);
    MarkingKeepsShape(Page, marked, Screen, [0, 0, 0]);
    CardAloneWhenMarked(marked);
    SectionRepeatsWhenMarked(marked);
    assert [0, 0, 0][..2] == [0, 0] && [0, 0, 0][..1] == [0];
    assert Walk(live, [0, 0, 0], 2) == Some([0]);
  }

  /** The rescan of the marked page marks and hides the section, which the
      first scan left visible: as written, `checkContent` is not
      idempotent. */
  lemma RescanMarksSection()
    ensures ScanAsWritten(Start, Page, Screen).Some?
    ensures var s1 := ScanAsWritten(Start, Page, Screen).value;
            && [0] !in s1.marked
            && [0] !in s1.display
            && ScanAsWritten(s1, Page, Screen).Some?
            && [0] in ScanAsWritten(s1, Page, Screen).value.marked
            && [0] in ScanAsWritten(s1, Page, Screen).value.display
            && ScanAsWritten(s1, Page, Screen).value.display[[0]] == "none"
  {
    FirstScanMarksCard();
    var s1 := ScanAsWritten(Start, Page, Screen).value;
    NoBodyLevelMatch();
    ScanAsWrittenThrowsIff(s1, Page, Screen);
    SectionCollectedOnRescan(s1.marked);
  }

  /** On the page marked by the first scan, the section is collected. */
  lemma SectionCollectedOnRescan(marked: set<Path>)
    requires [0, 0] in marked && [0, 1] !in marked && [0] !in marked && [1] !in marked
    ensures [0] in Collect(ApplyMarkers(Page, marked), Screen, ["x"])
  {
    var live := ApplyMarkers(Page, marked);
    TextCountedWhenMarked(marked);
    SecondScanResolvesSection(marked);
    PageNodes();
    MarkingKeepsShape(Page, marked, Screen, [0]);
    var t: Path := [0, 0, 0, 0];
    assert Parent(t) == [0, 0, 0];
    assert SmallAt(live, Screen, [0]);
    assert Recorded(live, Screen, ["x"], [0]);
  }

  /** The corrected scan reaches its fixed point after one run on the same
      page. */
  lemma CorrectedRescanMarksNothingNew()
    ensures Scan(Scan(Start, Page, Screen), Page, Screen) == Scan(Start, Page, Screen)
    ensures Scan(Start, Page, Screen).marked == FirstMarks
  {
    ScanIdempotent(Start, Page, Screen);
    FirstCollect();
  }
}

=== FILE: resolver.dfy ===
/** `getRepeatingAncestor`: the container a matched element is redacted
    with, found by walking up to the nearest ancestor that has a sibling
    built from the same template (same tag name, identical class string). */
module Resolver {
  import opened Wrappers
  import opened Seqs
  import opened Dom

  /** The element children of a parent that have the given tag name and
      exactly the given class string (the `siblings` array of the source,
      which counts the element itself). */
  function Alike(siblings: seq<Node>, tag: string, cls: string): seq<Node> {
    Filter(siblings, AlikeTo(tag, cls))
  }

  /** The test of the `siblings` filter: an element with this tag name and
      exactly this class string. */
  function AlikeTo(tag: string, cls: string): Node -> bool {
    (c: Node) => c.Element? && c.tag == tag && c.cls == cls
  }

  /** The length of `Alike(siblings, tag, cls)`, counted one child at a
      time so that the size test does not build the filtered sequence. */
  function CountAlike(siblings: seq<Node>, tag: string, cls: string): nat {
    if siblings == [] then 0
    else
      CountAlike(siblings[..|siblings| - 1], tag, cls) +
      (if AlikeTo(tag, cls)(siblings[|siblings| - 1]) then 1 else 0)
  }

  lemma {:induction false} CountAlikeIsLength(siblings: seq<Node>, tag: string, cls: string)
    ensures CountAlike(siblings, tag, cls) == |Alike(siblings, tag, cls)|
  {
    if siblings != [] {
      var init, last := siblings[..|siblings| - 1], siblings[|siblings| - 1];
      CountAlikeIsLength(init, tag, cls);
      assert init + [last] == siblings;
      FilterSnoc(init, last, AlikeTo(tag, cls));
    }
  }

  /** `siblings.length > 1` for the element at `p` (the body never
      qualifies: it has no parent in the tree). Class attributes are
      strings here; SVG elements, whose `className` is an object compared
      by identity, are not modelled. */
  predicate Repeats(d: Document, p: Path) {
    && p != []
    && IsElementAt(d, p)
    && CountAlike(ChildrenAt(d, Parent(p)), TagAt(d, p), ClassAt(d, p)) > 1
  }

  /** The element at `p` repeats exactly when its parent has another
      element child with the same tag name and the identical class string;
      class strings that differ only in token order or spacing do not
      count. */
  lemma RepeatsIffTwin(d: Document, p: Path)
    requires IsElementAt(d, p) && p != []
    ensures Repeats(d, p) <==>
            exists j :: 0 <= j < |ChildrenAt(d, Parent(p))| && j != p[|p| - 1] &&
                        ChildrenAt(d, Parent(p))[j].Element? &&
                        ChildrenAt(d, Parent(p))[j].tag == TagAt(d, p) &&
                        ChildrenAt(d, Parent(p))[j].cls == ClassAt(d, p)
  {
    var cs := ChildrenAt(d, Parent(p));
    var me := p[|p| - 1];
    var like := AlikeTo(TagAt(d, p), ClassAt(d, p));
    ParentIsElement(d, p);
    assert Parent(p) + [me] == p;
    NodeAtSnoc(Body(d), Parent(p), me);
    assert like(cs[me]);
    CountAlikeIsLength(cs, TagAt(d, p), ClassAt(d, p));
    FilterHasTwo(cs, like);
    TwoKeptIffAnother(cs, like, me);
  }

  /** None of the ancestors `q[..i]` with `j <= i < k` is tagged BODY. */
  ghost predicate ClearOfBody(d: Document, q: Path, j: nat, k: nat) {
    forall i :: j <= i < k && i <= |q| ==> TagAt(d, q[..i]) != BodyTag
  }

  /** The loop of `getRepeatingAncestor` with `current` at `q[..k]`: look at
      the parent `q[..k-1]`, stop at a BODY parent, return a parent that
      repeats, else climb. */
  function Walk(d: Document, q: Path, k: nat): (r: Option<Path>)
    requires k <= |q|
    ensures r.Some? ==> |r.value| < k && r.value == q[..|r.value|]
    decreases k
  {
    if k == 0 then None
    else
      var p := q[..k - 1];
      if TagAt(d, p) == BodyTag then None
      else if Repeats(d, p) then Some(p)
      else Walk(d, q, k - 1)
  }

  /** What the walk from `q[..k]` finds is the nearest repeating ancestor
      strictly below the first BODY-tagged one. */
  lemma {:induction false} WalkFindsNearest(d: Document, q: Path, k: nat)
    requires k <= |q| && Walk(d, q, k).Some?
    ensures ClearOfBody(d, q, |Walk(d, q, k).value|, k)
    ensures Repeats(d, Walk(d, q, k).value)
    ensures forall j :: |Walk(d, q, k).value| < j < k ==> !Repeats(d, q[..j])
    decreases k
  {
    var p := q[..k - 1];
    var tagged, repeats := TagAt(d, p) == BodyTag, Repeats(d, p);
    assert Walk(d, q, k) == if tagged then None else if repeats then Some(p) else Walk(d, q, k - 1);
    if !repeats {
      var r := Walk(d, q, k - 1);
      assert Walk(d, q, k) == r;
      WalkFindsNearest(d, q, k - 1);
      var m := |r.value|;
      assert ClearOfBody(d, q, m, k) by {
        forall i | m <= i < k && i <= |q| ensures TagAt(d, q[..i]) != BodyTag {
          if i < k - 1 {
            assert ClearOfBody(d, q, m, k - 1);
          }
        }
      }
      forall j | m < j < k ensures !Repeats(d, q[..j]) {
        if j == k - 1 {
          assert q[..j] == p;
        }
      }
    }
  }

  /** When the walk from `q[..k]` finds nothing, none of the ancestors it
      climbs past before a BODY-tagged one repeats. */
  lemma {:induction false} WalkMissesOnlyNonRepeating(d: Document, q: Path, k: nat)
    requires k <= |q| && Walk(d, q, k).None?
    ensures forall j :: 0 <= j < k && ClearOfBody(d, q, j, k) ==> !Repeats(d, q[..j])
    decreases k
  {
    if k > 0 {
      var p := q[..k - 1];
      if TagAt(d, p) != BodyTag {
        WalkMissesOnlyNonRepeating(d, q, k - 1);
        forall j | 0 <= j < k && ClearOfBody(d, q, j, k) ensures !Repeats(d, q[..j]) {
          if j < k - 1 {
            assert ClearOfBody(d, q, j, k - 1);
          }
        }
      } else {
        assert TagAt(d, q[..k - 1]) == BodyTag;
      }
    }
  }

  /** `getRepeatingAncestor(el)` for the element at `q`: the nearest
      ancestor below the walk's BODY stop that repeats, or none. */
  function RepeatingAncestor(d: Document, q: Path): (r: Option<Path>)
    requires IsElementAt(d, q)
    ensures r.Some? ==>
              && r.value != []
              && |r.value| < |q|
              && r.value == q[..|r.value|]
              && IsElementAt(d, r.value)
              && TagAt(d, r.value) != BodyTag
              && Repeats(d, r.value)
              && (forall j :: |r.value| < j < |q| ==> !Repeats(d, q[..j]) && TagAt(d, q[..j]) != BodyTag)
    ensures r.None? ==>
              forall j :: 0 <= j < |q| && ClearOfBody(d, q, j, |q|) ==> !Repeats(d, q[..j])
  {
    var r := Walk(d, q, |q|);
    if r.Some? then
      WalkFindsNearest(d, q, |q|);
      WalkFindsElement(d, q);
      r
    else
      WalkMissesOnlyNonRepeating(d, q, |q|);
      r
  }

  lemma WalkFindsElement(d: Document, q: Path)
    requires IsElementAt(d, q)
    ensures var r := Walk(d, q, |q|);
            r.Some? ==> IsElementAt(d, r.value) && TagAt(d, r.value) != BodyTag
  {
    var r := Walk(d, q, |q|);
    if r.Some? {
      WalkFindsNearest(d, q, |q|);
      assert TagAt(d, q[..|r.value|]) != BodyTag;
      AncestorIsElement(d, q, |r.value|);
    }
  }

  /** What `getRepeatingAncestor` does when called: return a value, or
      throw a TypeError. */
  datatype Outcome = Returned(ancestor: Option<Path>) | TypeError

  /** `getRepeatingAncestor` as written. Called on the body itself,
      the loop guard sees `<html>` as the parent (not BODY), and reading
      `parent.parentElement.children` on `<html>`, whose parentElement is
      null, throws. */
  function RepeatingAncestorAsWritten(d: Document, q: Path): (r: Outcome)
    requires IsElementAt(d, q)
    ensures r.TypeError? ==> q == []
    ensures r.Returned? && r.ancestor.Some? ==>
              && r.ancestor.value != []
              && |r.ancestor.value| < |q|
              && r.ancestor.value == q[..|r.ancestor.value|]
              && IsElementAt(d, r.ancestor.value)
              && Repeats(d, r.ancestor.value)
  {
    if q == [] then TypeError
    else
      var a := Walk(d, q, |q|);
      if a.Some? then
        WalkFindsNearest(d, q, |q|);
        WalkFindsElement(d, q);
        Returned(a)
      else Returned(a)
  }

  /** The as-written resolver throws exactly on the body and otherwise
      agrees with `RepeatingAncestor`. */
  lemma AsWrittenThrowsOnlyOnBody(d: Document, q: Path)
    requires IsElementAt(d, q)
    ensures RepeatingAncestorAsWritten(d, q) == TypeError <==> q == []
    ensures q != [] ==> RepeatingAncestorAsWritten(d, q) == Returned(RepeatingAncestor(d, q))
  {
  }

  /** The corrected resolver never throws and finds nothing above the body. */
  lemma BodyHasNoRepeatingAncestor(d: Document)
    ensures RepeatingAncestor(d, []) == None
  {
  }
}

=== FILE: seqs.dfy ===
/** Sequence vocabulary shared by the keyword list, the class list and the
    scan: duplicate-freedom, subsequences, filtering and the order-preserving
    de-duplication performed by a JavaScript `Set`. */
module Seqs {

  ghost predicate NoDup<T>(s: seq<T>) {
    forall i, j :: 0 <= i < j < |s| ==> s[i] != s[j]
  }

  /** `a` is obtained from `b` by deleting elements (relative order kept).
      Matching greedily from the right is complete for subsequences. */
  predicate IsSubseq<T(==)>(a: seq<T>, b: seq<T>)
    decreases |b|
  {
    || a == []
    || (&& b != []
        && if a[|a| - 1] == b[|b| - 1]
           then IsSubseq(a[..|a| - 1], b[..|b| - 1])
           else IsSubseq(a, b[..|b| - 1]))
  }

  lemma {:induction false} SubseqAppend<T>(a: seq<T>, b: seq<T>, x: T)
    requires IsSubseq(a, b)
    ensures IsSubseq(a, b + [x])
    decreases |b|, 1
  {
    if a != [] {
      assert (b + [x])[..|b|] == b;
      if a[|a| - 1] == x {
        SubseqDropLast(a, b);
      }
    }
  }

  lemma {:induction false} SubseqDropLast<T>(a: seq<T>, b: seq<T>)
    requires a != [] && IsSubseq(a, b)
    ensures IsSubseq(a[..|a| - 1], b)
    decreases |b|, 0
  {
    var a', b' := a[..|a| - 1], b[..|b| - 1];
    assert b == b' + [b[|b| - 1]];
    if a[|a| - 1] == b[|b| - 1] {
      SubseqAppend(a', b', b[|b| - 1]);
    } else {
      SubseqDropLast(a, b');
      SubseqAppend(a', b', b[|b| - 1]);
    }
  }

  lemma SubseqSnoc<T>(a: seq<T>, b: seq<T>, x: T)
    requires IsSubseq(a, b)
    ensures IsSubseq(a + [x], b + [x])
  {
    assert (a + [x])[..|a|] == a;
    assert (b + [x])[..|b|] == b;
  }

  /** The elements of `s` that satisfy `keep`, in their original order:
      JavaScript's `Array.prototype.filter`. */
  function Filter<T(!new)>(s: seq<T>, keep: T -> bool): (r: seq<T>)
    ensures forall x :: x in r <==> x in s && keep(x)
    ensures forall x :: multiset(r)[x] == if keep(x) then multiset(s)[x] else 0
    ensures IsSubseq(r, s)
    ensures |r| <= |s|
  {
    if s == [] then []
    else
      var init, last := s[..|s| - 1], s[|s| - 1];
      assert s == init + [last];
      var r0 := Filter(init, keep);
      if keep(last) then
        SubseqSnoc(r0, init, last);
        r0 + [last]
      else
        SubseqAppend(r0, init, last);
        r0
  }

  /** Two distinct positions of `s` hold elements that pass `keep`. */
  ghost predicate TwoKept<T>(s: seq<T>, keep: T -> bool) {
    exists i, j :: 0 <= i < j < |s| && keep(s[i]) && keep(s[j])
  }

  /** There are at least two positions whose element passes `keep` exactly
      when the filtered sequence has more than one element. */
  lemma FilterHasTwo<T(!new)>(s: seq<T>, keep: T -> bool)
    ensures |Filter(s, keep)| > 1 <==> TwoKept(s, keep)
  {
    if |Filter(s, keep)| > 1 {
      FilterTwoGivesTwoKept(s, keep);
    }
    if TwoKept(s, keep) {
      TwoKeptGivesFilterTwo(s, keep);
    }
  }

  lemma {:induction false} FilterTwoGivesTwoKept<T(!new)>(s: seq<T>, keep: T -> bool)
    requires |Filter(s, keep)| > 1
    ensures TwoKept(s, keep)
  {
    var init, last := s[..|s| - 1], s[|s| - 1];
    assert s == init + [last];
    var f0 := Filter(init, keep);
    assert Filter(s, keep) == if keep(last) then f0 + [last] else f0;
    if |f0| > 1 {
      FilterTwoGivesTwoKept(init, keep);
      var i, j :| 0 <= i < j < |init| && keep(init[i]) && keep(init[j]);
      assert s[i] == init[i] && s[j] == init[j];
    } else {
      var x := f0[0];
      assert x in f0;
      var i :| 0 <= i < |init| && init[i] == x;
      assert s[i] == x && s[|s| - 1] == last;
    }
  }

  lemma {:induction false} TwoKeptGivesFilterTwo<T(!new)>(s: seq<T>, keep: T -> bool)
    requires TwoKept(s, keep)
    ensures |Filter(s, keep)| > 1
  {
    var init, last := s[..|s| - 1], s[|s| - 1];
    assert s == init + [last];
    var f0 := Filter(init, keep);
    assert Filter(s, keep) == if keep(last) then f0 + [last] else f0;
    var i, j :| 0 <= i < j < |s| && keep(s[i]) && keep(s[j]);
    if j < |s| - 1 {
      assert init[i] == s[i] && init[j] == s[j];
      TwoKeptGivesFilterTwo(init, keep);
    } else {
      assert init[i] == s[i];
      assert init[i] in f0;
    }
  }

  /** When the element at position `me` passes `keep`, two positions pass
      exactly when some other position does. */
  lemma TwoKeptIffAnother<T>(s: seq<T>, keep: T -> bool, me: nat)
    requires me < |s| && keep(s[me])
    ensures TwoKept(s, keep) <==> exists j :: 0 <= j < |s| && j != me && keep(s[j])
  {
    if TwoKept(s, keep) {
      var i, j :| 0 <= i < j < |s| && keep(s[i]) && keep(s[j]);
      if i != me {
        assert keep(s[i]);
      } else {
        assert keep(s[j]);
      }
    }
    if exists j :: 0 <= j < |s| && j != me && keep(s[j]) {
      var j :| 0 <= j < |s| && j != me && keep(s[j]);
      if j < me {
        assert keep(s[j]) && keep(s[me]);
      } else {
        assert keep(s[me]) && keep(s[j]);
      }
    }
  }

  /** Filtering a sequence whose every element passes changes nothing. */
  lemma {:induction false} FilterKeepsAll<T(!new)>(s: seq<T>, keep: T -> bool)
    requires forall i :: 0 <= i < |s| ==> keep(s[i])
    ensures Filter(s, keep) == s
  {
    if s != [] {
      var init := s[..|s| - 1];
      assert s == init + [s[|s| - 1]];
      FilterKeepsAll(init, keep);
    }
  }

  /** Filtering after appending one element. */
  lemma FilterSnoc<T(!new)>(s: seq<T>, x: T, keep: T -> bool)
    ensures Filter(s + [x], keep) == if keep(x) then Filter(s, keep) + [x] else Filter(s, keep)
  {
    assert (s + [x])[..|s|] == s;
  }

  /** Reference definition of de-duplication: keep each element of `s`
      exactly where it occurs for the first time. */
  function FirstOccurrences<T(==,!new)>(s: seq<T>): (r: seq<T>)
    ensures NoDup(r)
    ensures forall x :: x in r <==> x in s
    ensures IsSubseq(r, s)
  {
    if s == [] then []
    else
      var init, last := s[..|s| - 1], s[|s| - 1];
      assert s == init + [last];
      var r0 := FirstOccurrences(init);
      if last in init then
        SubseqAppend(r0, init, last);
        r0
      else
        SubseqSnoc(r0, init, last);
        r0 + [last]
  }

  /** Adding `x` to an insertion-ordered set whose contents are `acc`: an
      element already present is not moved, a new one goes to the end. */
  function Insert<T(==)>(acc: seq<T>, x: T): seq<T> {
    if x in acc then acc else acc + [x]
  }

  lemma InsertNoDup<T>(acc: seq<T>, x: T)
    requires NoDup(acc)
    ensures NoDup(Insert(acc, x))
    ensures forall y :: y in Insert(acc, x) <==> y in acc || y == x
  {
  }

  /** `[...new Set(s)]`: the elements of `s` inserted one by one, from the
      first to the last, into an initially empty insertion-ordered set. */
  function Dedup<T(==,!new)>(s: seq<T>): (r: seq<T>)
    ensures r == FirstOccurrences(s)
  {
    if s == [] then []
    else Insert(Dedup(s[..|s| - 1]), s[|s| - 1])
  }

  lemma FirstOccurrencesSnoc<T(!new)>(s: seq<T>, x: T)
    ensures FirstOccurrences(s + [x]) ==
            if x in s then FirstOccurrences(s) else FirstOccurrences(s) + [x]
  {
    assert (s + [x])[..|s|] == s;
  }

  /** De-duplicating `a + b` keeps the de-duplication of `a` as a prefix. */
  lemma {:induction false} FirstOccurrencesPrefix<T(!new)>(a: seq<T>, b: seq<T>)
    ensures |FirstOccurrences(a)| <= |FirstOccurrences(a + b)|
    ensures FirstOccurrences(a + b)[..|FirstOccurrences(a)|] == FirstOccurrences(a)
    decreases |b|
  {
    if b == [] {
      assert a + b == a;
    } else {
      var b', y := b[..|b| - 1], b[|b| - 1];
      assert a + b == (a + b') + [y];
      FirstOccurrencesPrefix(a, b');
      FirstOccurrencesSnoc(a + b', y);
    }
  }

  /** A sequence without duplicates is its own de-duplication. */
  lemma {:induction false} FirstOccurrencesOfNoDup<T(!new)>(s: seq<T>)
    requires NoDup(s)
    ensures FirstOccurrences(s) == s
  {
    if s != [] {
      var init, last := s[..|s| - 1], s[|s| - 1];
      assert s == init + [last];
      assert NoDup(init);
      assert last !in init by {
        forall i | 0 <= i < |init| ensures init[i] != last {
          assert s[i] == init[i];
        }
      }
      FirstOccurrencesOfNoDup(init);
    }
  }

  /** The union of `f(t)` over the elements `t` of `ts`. */
  function UnionOver<T, U(!new)>(ts: seq<T>, f: T -> set<U>): (r: set<U>)
    ensures forall u :: u in r <==> exists i :: 0 <= i < |ts| && u in f(ts[i])
  {
    if ts == [] then {}
    else
      var init := ts[..|ts| - 1];
      assert forall i :: 0 <= i < |init| ==> ts[i] == init[i];
      UnionOver(init, f) + f(ts[|ts| - 1])
  }

  /** Appending elements that already occur does not change the
      de-duplication. */
  lemma {:induction false} FirstOccurrencesAbsorbs<T(!new)>(a: seq<T>, b: seq<T>)
    requires forall i :: 0 <= i < |b| ==> b[i] in a
    ensures FirstOccurrences(a + b) == FirstOccurrences(a)
    decreases |b|
  {
    if b == [] {
      assert a + b == a;
    } else {
      var b', y := b[..|b| - 1], b[|b| - 1];
      assert a + b == (a + b') + [y];
      FirstOccurrencesAbsorbs(a, b');
      FirstOccurrencesSnoc(a + b', y);
    }
  }
}

=== FILE: settings.dfy ===
/** The per-site switch stored under "siteFilters": host name to
    "filtering enabled". */
module Settings {

  type SiteFilters = map<string, bool>

  /** `siteFilters[host] ?? true`: a host without an entry is filtered. */
  function EnabledFor(siteFilters: SiteFilters, host: string): (r: bool)
    ensures host in siteFilters ==> r == siteFilters[host]
    ensures host !in siteFilters ==> r
  {
    if host in siteFilters then siteFilters[host] else true
  }

  /** Storing a flag for one host is what that host reads back, and every
      other host reads what it read before. */
  lemma EnabledForUpdate(siteFilters: SiteFilters, host: string, flag: bool, other: string)
    ensures EnabledFor(siteFilters[host := flag], host) == flag
    ensures other != host ==> EnabledFor(siteFilters[host := flag], other) == EnabledFor(siteFilters, other)
  {
  }
}

=== FILE: strings.dfy ===
/** The string operations the extension borrows from JavaScript:
    `toLowerCase`, `trim`, `includes`, and `split` on a one-character
    separator (with its inverse, `join`). Strings are sequences of
    characters. */
module Strings {

  /** ASCII case folding; other characters are left as they are. */
  function LowerChar(c: char): char {
    if 'A' <= c <= 'Z' then (c as int - 'A' as int + 'a' as int) as char else c
  }

  function Lower(s: string): (r: string)
    ensures |r| == |s|
    ensures forall i :: 0 <= i < |s| ==> r[i] == LowerChar(s[i])
  {
    if s == [] then [] else [LowerChar(s[0])] + Lower(s[1..])
  }

  /** Folding twice is folding once. */
  lemma {:induction false} LowerIdempotent(s: string)
    ensures Lower(Lower(s)) == Lower(s)
  {
    var l := Lower(s);
    assert forall i :: 0 <= i < |s| ==> Lower(l)[i] == LowerChar(LowerChar(s[i])) == l[i];
  }

  /** The characters removed by `String.prototype.trim`: the ECMAScript
      WhiteSpace (TAB, VT, FF, SPACE, NBSP, ZWNBSP and the Unicode space
      separators) and LineTerminator (LF, CR, LS, PS) code points. */
  predicate IsTrimmable(c: char) {
    || c == '\t' || c == '\U{B}' || c == '\U{C}' || c == ' ' || c == '\U{A0}' || c == '\U{FEFF}'
    || c == '\U{1680}' || c == '\U{202F}' || c == '\U{205F}' || c == '\U{3000}'
    || ('\U{2000}' <= c <= '\U{200A}')
    || c == '\n' || c == '\r' || c == '\U{2028}' || c == '\U{2029}'
  }

  predicate AllTrimmable(s: string) {
    forall i :: 0 <= i < |s| ==> IsTrimmable(s[i])
  }

  /** `s` without its leading trimmable characters: a suffix of `s` that
      begins with a non-trimmable character, if any. */
  function TrimStart(s: string): (r: string)
    ensures |r| <= |s| && r == s[|s| - |r|..]
    ensures forall i :: 0 <= i < |s| - |r| ==> IsTrimmable(s[i])
    ensures r == [] || !IsTrimmable(r[0])
  {
    if s != [] && IsTrimmable(s[0]) then
      var r := TrimStart(s[1..]);
      var cut := |s| - |r|;
      assert s[1..][|s| - 1 - |r|..] == s[cut..];
      r
    else s
  }

  /** `s` without its trailing trimmable characters. */
  function TrimEnd(s: string): (r: string)
    ensures |r| <= |s| && r == s[..|r|]
    ensures AllTrimmable(s[|r|..])
    ensures r == [] || !IsTrimmable(r[|r| - 1])
  {
    if s != [] && IsTrimmable(s[|s| - 1]) then
      var r := TrimEnd(s[..|s| - 1]);
      assert s[..|s| - 1][..|r|] == s[..|r|];
      assert forall i :: 0 <= i < |s| - 1 - |r| ==> s[|r|..][i] == s[..|s| - 1][|r|..][i];
      r
    else s
  }

  /** `String.prototype.trim`: `s` without its leading and trailing
      trimmable characters. */
  function Trim(s: string): (r: string)
    ensures |r| <= |s|
    ensures r == [] || (!IsTrimmable(r[0]) && !IsTrimmable(r[|r| - 1]))
  {
    var t := TrimStart(s);
    var r := TrimEnd(t);
    assert r != [] ==> r[0] == t[0];
    r
  }

  /** Where `Trim(s)` starts in `s`: the length of the leading trimmable
      run. */
  function TrimOffset(s: string): nat {
    |s| - |TrimStart(s)|
  }

  /** What `Trim` cuts off is trimmable: the result is the infix of `s`
      starting where the leading trimmable run ends, and everything around
      it is trimmable. */
  lemma TrimIsInfix(s: string)
    ensures TrimOffset(s) + |Trim(s)| <= |s|
    ensures Trim(s) == s[TrimOffset(s)..TrimOffset(s) + |Trim(s)|]
    ensures AllTrimmable(s[..TrimOffset(s)])
    ensures AllTrimmable(s[TrimOffset(s) + |Trim(s)|..])
  {
    var t := TrimStart(s);
    TrimEndIsPrefix(s, TrimOffset(s), t);
  }

  /** Trimming the end of a suffix `t` of `s` leaves a slice of `s` followed
      only by trimmable characters. */
  lemma TrimEndIsPrefix(s: string, i: nat, t: string)
    requires i <= |s| && t == s[i..]
    ensures var r := TrimEnd(t);
            && i + |r| <= |s|
            && r == s[i..i + |r|]
            && AllTrimmable(s[i + |r|..])
  {
    var r := TrimEnd(t);
    SliceOfSuffix(s, i, t, |r|);
    assert s[i + |r|..] == t[|r|..];
  }

  lemma SliceOfSuffix(s: string, i: nat, t: string, k: nat)
    requires i <= |s| && t == s[i..] && k <= |t|
    ensures t[..k] == s[i..i + k] && t[k..] == s[i + k..]
  {
  }

  /** Only a string made entirely of trimmable characters trims to "". */
  lemma TrimEmptyIff(s: string)
    ensures Trim(s) == "" <==> AllTrimmable(s)
  {
    var t := TrimStart(s);
    if Trim(s) == "" {
      assert AllTrimmable(t) by {
        assert AllTrimmable(t[0..]);
      }
      assert s == s[..|s| - |t|] + t;
    }
  }

  /** A character absent from `s` is absent from its trimmed form. */
  lemma TrimKeepsOut(s: string, c: char)
    requires c !in s
    ensures c !in Trim(s)
  {
    TrimIsInfix(s);
  }

  /** Trimming is idempotent. */
  lemma TrimIdempotent(s: string)
    ensures Trim(Trim(s)) == Trim(s)
  {
    var r := Trim(s);
    if r != [] {
      assert TrimStart(r) == r;
      assert TrimEnd(r) == r;
    }
  }

  /** `needle` occurs in `hay` starting at position `i`. */
  ghost predicate OccursAt(hay: string, needle: string, i: int) {
    0 <= i && i + |needle| <= |hay| && hay[i..i + |needle|] == needle
  }

  /** `String.prototype.includes`. */
  function Includes(hay: string, needle: string): (r: bool)
    ensures r <==> exists i :: OccursAt(hay, needle, i)
  {
    if |needle| > |hay| then false
    else if hay[..|needle|] == needle then
      assert OccursAt(hay, needle, 0);
      true
    else
      var r := Includes(hay[1..], needle);
      assert r ==> exists i :: OccursAt(hay, needle, i) by {
        if r {
          var i :| OccursAt(hay[1..], needle, i);
          assert hay[1..][i..i + |needle|] == hay[i + 1..i + 1 + |needle|];
          assert OccursAt(hay, needle, i + 1);
        }
      }
      assert (exists i :: OccursAt(hay, needle, i)) ==> r by {
        if exists i :: OccursAt(hay, needle, i) {
          var i :| OccursAt(hay, needle, i);
          assert i != 0;
          assert hay[1..][i - 1..i - 1 + |needle|] == hay[i..i + |needle|];
          assert OccursAt(hay[1..], needle, i - 1);
        }
      }
      r
  }

  /** The empty string occurs in every string. */
  lemma IncludesEmpty(hay: string)
    ensures Includes(hay, "")
  {
    assert OccursAt(hay, "", 0);
  }

  /** `String.prototype.split` with a one-character separator: the maximal
      separator-free pieces between separators, empty ones included. */
  function Split(s: string, sep: char): (r: seq<string>)
    ensures |r| >= 1
    ensures forall i :: 0 <= i < |r| ==> sep !in r[i]
    ensures Join(r, sep) == s
  {
    if s == [] then [""]
    else
      var rest := Split(s[1..], sep);
      if s[0] == sep then
        assert s == [sep] + s[1..];
        [""] + rest
      else
        var r := [[s[0]] + rest[0]] + rest[1..];
        assert r[1..] == rest[1..];
        assert s == [s[0]] + s[1..];
        r
  }

  /** `Array.prototype.join` with a one-character separator. */
  function Join(parts: seq<string>, sep: char): string
    requires |parts| >= 1
  {
    if |parts| == 1 then parts[0] else parts[0] + [sep] + Join(parts[1..], sep)
  }

  /** Splitting a join of separator-free pieces gives the pieces back. */
  lemma {:induction false} SplitJoin(parts: seq<string>, sep: char)
    requires |parts| >= 1
    requires forall i :: 0 <= i < |parts| ==> sep !in parts[i]
    ensures Split(Join(parts, sep), sep) == parts
  {
    var p := parts[0];
    if |parts| == 1 {
      SplitPieceThen(p, "", sep);
      assert Split("", sep) == [""];
      assert p + "" == p;
    } else {
      var rest := parts[1..];
      var tail := [sep] + Join(rest, sep);
      assert Join(parts, sep) == p + tail;
      SplitJoin(rest, sep);
      SplitAtSeparator(tail, sep);
      assert tail[1..] == Join(rest, sep);
      var st := Split(tail, sep);
      assert st == [""] + rest;
      SplitPieceThen(p, tail, sep);
      assert p + st[0] == p;
      assert parts == [p] + st[1..];
    }
  }

  /** A string that starts with the separator splits into an empty piece
      followed by the pieces of the remainder. */
  lemma SplitAtSeparator(s: string, sep: char)
    requires s != [] && s[0] == sep
    ensures Split(s, sep) == [""] + Split(s[1..], sep)
  {
  }

  /** A string that starts with another character splits with that
      character glued to the front of the remainder's first piece. */
  lemma SplitAtOther(s: string, sep: char)
    requires s != [] && s[0] != sep
    ensures Split(s, sep) == [[s[0]] + Split(s[1..], sep)[0]] + Split(s[1..], sep)[1..]
  {
  }

  /** Splitting a separator-free `p` followed by any `tail`: `p` is glued
      to the front of the first piece of `tail`. */
  lemma {:induction false} SplitPieceThen(p: string, tail: string, sep: char)
    requires sep !in p
    ensures Split(p + tail, sep) ==
            [p + Split(tail, sep)[0]] + Split(tail, sep)[1..]
  {
    var st := Split(tail, sep);
    if p == [] {
      assert p + tail == tail;
      assert p + st[0] == st[0];
      assert st == [st[0]] + st[1..];
    } else {
      var pt := p + tail;
      assert pt[0] == p[0] && pt[1..] == p[1..] + tail;
      SplitPieceThen(p[1..], tail, sep);
      SplitAtOther(pt, sep);
      var rest := Split(pt[1..], sep);
      assert rest == [p[1..] + st[0]] + st[1..];
      assert rest[0] == p[1..] + st[0] && rest[1..] == st[1..];
      assert [p[0]] + (p[1..] + st[0]) == p + st[0];
    }
  }
}

=== FILE: wrappers.dfy ===
/** An optional value, standing for the `undefined` that the extension's
    storage reads and map lookups can produce. */
module Wrappers {

  datatype Option<+T> = None | Some(value: T) {

    /** The wrapped value, or `default` when absent: the `x ?? d` and
        destructuring-default idiom of the extension. */
    function GetOr(default: T): T {
      match this
      case Some(v) => v
      case None => default
    }
  }
}
